=== FILE: README.md ===
# Directive resolution of the OPTIMADE property-definition preprocessor

`tests/scripts/process_schemas.py` turns property-definition documents
(JSON or YAML) into their published form. It resolves a small set of
preprocessor directives found in the documents:

- `$$inherit` loads another document, resolves it recursively, filters it with
  its `$$keep` and `$$exclude` directives, and deep-merges it into the
  inheriting dict without overriding the inheritor's own top-level non-dict
  values (inside a dict present on both sides, the loaded document wins);
- `$$schema` becomes `$schema` with the output format appended as an extension;
- an inner `$schema` is removed on request;
- null values of dicts are removed on request;
- the literal `-s` substitutions are applied to every string value of the
  inherited document's dicts, at any depth (keys and the contents of lists
  are left alone).

This project models that engine in Dafny and proves properties of it. The
model follows the code as written, including its quirks, and records them
as lemmas:

- a list-valued `$$inherit` fails unless it is empty;
- `$$keep` needs a `$$exclude` key next to it and must list itself;
- `$$exclude` fails on anything but an empty list, string or dict: a
  non-empty one reaches `re`, which is never imported, and any other value
  cannot be iterated;
- every recursive call runs at level 0, so `clean_inner_schemas` has no effect;
- the bases derived from a document's `$id` lack `self`;
- the loaded document's `$$exclude` key is never deleted, so it is merged into
  the inheriting dict; since `$$keep` needs that key next to it, every
  successful `$$keep` that lists `$$exclude` brings it along;
- `urljoin` keeps empty segments of an absolute reference path, so a
  reference such as `/schemas//c` under the id `https://x/schemas/` leaves
  `/c` after the id is cut off, and joining that onto the base directory
  discards the directory.

Where the program's own descriptions and its code differ, the model follows
the code:

- The module docstring (`tests/scripts/process_schemas.py:7`) says
  `$$inherit` may reference a list of schemas. The code rebinds the loop
  variable to the whole list, so only an empty list gets through.
- The docstring (lines 11-14) describes `$$keep` as a list of keys to import,
  evaluated before `$$exclude`. The code reads `$$exclude` before filtering,
  so `$$keep` fails without it, and it deletes `$$keep` mid-loop unless
  `$$keep` lists itself. An illustrative input such as
  `{"$$keep": ["a", "c"], "$$exclude": ["c/d"], ...}` is therefore rejected.
- The docstring (lines 16-19) describes `$$exclude` as deleting members,
  following `/` pointers. The code never deletes anything. The pointer split
  and the walk it would perform are modelled as separate helpers that the
  engine does not call.
- The docstring (lines 7-9) says the inheritor's further dictionary members
  are deep merged into the inherited schema, so the inheritor's values should
  win at every depth. The code merges the loaded document into the
  inheritor, and the recursive call for a dict present on both sides (line
  501) leaves `replace` at its default of true, so one level down the loaded
  document wins every clash (`Merge.NestedScalarIsReplaced`).
- The `--clean-inner-schemas` help (line 110) promises that inner `$schema`
  occurrences are cleaned. The code never recurses with a level above 0, so
  nothing is cleaned.

Modules, following the structure of the program:

| module | file | models |
|---|---|---|
| `Text` | text.dfy | the `str` methods the script uses: `startswith`, `endswith`, `in`, `replace`, `split`, `join`, `rfind`, `find`, `lower` |
| `PosixPath` | paths.dfy | `os.path.isabs`, `join`, `dirname`, `splitext`, `commonprefix` |
| `Urls` | urls.dfy | `urllib.parse.urlparse`, `urlunparse`, and `urljoin` for an absolute-path reference (CPython 3.9 to 3.11) |
| `Trees` | tree.dfy | the parsed document tree, Python's `in` on it, and the error kinds |
| `Merge` | merge.dfy | `merge_deep` |
| `Substitute` | substitute.dfy | `recursive_replace` |
| `Reference` | reference.dfy | `inherit_to_source` |
| `Directives` | directives.dfy | the `$$keep` and `$$exclude` steps of `handle_all` |
| `Engine` | engine.dfy | `handle_inherit` in "insert" mode, and `handle_all` |
| `EngineFacts` | engine_facts.dfy | properties of `handle_all` that relate several calls |
| `FuelFacts` | fuel.dfy | more fuel never changes a successful result of `handle_all` |
| `Driver` | driver.dfy | `process`: the `self` directory and the base id derived from `$id` |
| `Validate` | validate.dfy | the schema lookup at the start of `validate` |

What the engine reaches outside the tree is a `Loader`:

- the parsed documents by source (`read_data(source)[0]`);
- the mapping from an `$$inherit` reference to a source;
- the directory function.

The engine's lemmas hold for any loader. `Engine.Standard`, a plain
definition, builds the
program's loader, which uses `inherit_to_source` and `os.path.dirname`.
`process` always uses it.

Every failure is a `Result` error. The Python code raises exceptions of
several types at these points, and each error kind stands for them.

Following an `$$inherit` reference loads a document that may itself inherit,
so nothing bounds the recursion. The model therefore carries `fuel`, which
bounds how deeply followed references may nest: every value of a dict gets
the same fuel, and a dict that followed a reference hands its values one unit
less. Running out gives `OutOfFuel`. `FuelFacts.MoreFuel` shows that fuel
only truncates: a result obtained with some fuel is the result with any
larger fuel.

## Model

| member | source | states |
|---|---|---|
| Merge.MergeDeep | tests/scripts/process_schemas.py:485-503 | the merged dict has exactly the keys of both; a key only in `other` takes `other`'s value, a key only in `d` keeps `d`'s; a dict of `d` stays a dict unless `replace` lets a non-dict of `other` override it |
| Merge.MergeKeepsTopLevelNonDicts | tests/scripts/process_schemas.py:498-503 | with `replace` off (the call in `handle_all`), a non-dict top-level value of `d` is never changed, whatever `other` holds |
| Merge.MergeReplaceTakesOther | tests/scripts/process_schemas.py:498-503 | with `replace` on, `other`'s value wins at every key where the two are not both dicts |
| Merge.MergeNestedAlwaysReplaces | tests/scripts/process_schemas.py:500-501 | where both sides hold a dict, the recursive merge runs with `replace` on, whatever the caller asked for |
| Merge.MergeReplaceCoversOther | tests/scripts/process_schemas.py:485-503 | a merge with `replace` on keeps every leaf of `other` at every depth |
| Merge.MergeSelf | tests/scripts/process_schemas.py:485-503 | merging a dict into itself changes nothing |
| Merge.MergeEmpty | tests/scripts/process_schemas.py:485-503 | merging an empty dict changes nothing, and merging into an empty dict copies |
| Merge.NestedScalarIsReplaced | tests/scripts/process_schemas.py:500-501 | one level down, a clash is decided for `other` even with `replace` off: `{"a": {"x": 1}}` merged with `{"a": {"x": 2}}` gives `{"a": {"x": 2}}` |
| Text.ReplaceAll | tests/scripts/process_schemas.py:434 | `str.replace`: replacing a string by itself, or a non-empty string that does not occur, leaves the text unchanged; the replacement of the other occurrences is stated by `Text.ReplaceFirstOccurrence` |
| Text.ReplaceFirstOccurrence | tests/scripts/process_schemas.py:434 | all occurrences are replaced, left to right without overlap: when the first occurrence in `a + lhs + b` follows `a`, the result is `a`, the replacement, then the replacement of every occurrence in `b` |
| Text.ReplaceEveryOccurrence | tests/scripts/process_schemas.py:78 | both occurrences in `lhs + lhs` are replaced, as `"aa".replace("a", "b")` gives `"bb"` |
| Text.InsertEverywhere | tests/scripts/process_schemas.py:434 | `str.replace` with an empty pattern: the length grows by (n+1) times the replacement's length, an empty replacement changes nothing, and the result starts with the replacement |
| Text.InsertEverywhereLayout | tests/scripts/process_schemas.py:434 | character `i` of the text sits at `i * (k + 1) + k`, for a replacement of length `k`, right after a copy of the replacement |
| Text.InsertEverywhereEnd | tests/scripts/process_schemas.py:434 | a copy of the replacement ends the result, after the last character |
| Text.ReplaceLeadingOccurrence | tests/scripts/process_schemas.py:434 | a leading occurrence followed by text without the pattern becomes the replacement followed by that text |
| Substitute.ApplyPairs | tests/scripts/process_schemas.py:433-434 | a one-pair table is `str.replace` of its `lhs` by its `rhs`, replacing every occurrence; an empty table, or one whose pairs map a string to itself, leaves a string unchanged |
| Substitute.ApplyPairsLast | tests/scripts/process_schemas.py:433-434 | the pairs apply in table order: the last pair is a `str.replace` on what the earlier pairs produced, so every table is a chain of replace-alls |
| Substitute.ApplyPairsConcat | tests/scripts/process_schemas.py:433-434 | applying two tables in turn is applying their concatenation |
| Substitute.PairOrderMatters | tests/scripts/process_schemas.py:433-434 | the pairs apply in order and later pairs see earlier output: `a→b, b→c` turns `a` into `c`, the reverse order gives `b` |
| Substitute.RecursiveReplace | tests/scripts/process_schemas.py:412-438 | keys are kept; a string value is substituted; a dict value is replaced by the recursive substitution of that dict, so strings at every depth of dicts are substituted; every other value, lists included, is unchanged |
| Substitute.RecursiveReplaceConcat | tests/scripts/process_schemas.py:412-438 | two substitution passes over a nested dict equal one pass with the concatenated table |
| Substitute.RecursiveReplaceIdentity | tests/scripts/process_schemas.py:412-438 | a table of identity pairs leaves the whole nested dict unchanged |
| Substitute.ListsUntouched | tests/scripts/process_schemas.py:436-437 | only dicts are entered, so a list value keeps every string inside it |
| Substitute.RecursiveReplaceAt | tests/scripts/process_schemas.py:412-438 | along any path of keys through nested dicts, a value is reached after substitution exactly when it was before; a string found there has had every pair applied, a dict keeps its keys, any other value is unchanged |
| Urls.UrlParse | tests/scripts/process_schemas.py:399 | a reference without a scheme gets the default scheme; the path never holds `?` or `#`, and the query never holds `#` |
| Urls.AbsoluteReferencePath | tests/scripts/process_schemas.py:399-402 | parsing an absolute path gives a path that is empty or absolute, and an empty path comes with no parameters |
| Urls.PlainPathParse | tests/scripts/process_schemas.py:399-400 | a reference without `:`, `;`, `?`, `#` or a leading `//` is all path, with an empty scheme |
| Urls.UrlJoinAbsPath | tests/scripts/process_schemas.py:404 | `urljoin` with an empty base returns the reference; the joins onto a base with a host are stated by `Urls.UrlJoinHostPath` and `Urls.JoinBarePath` |
| Urls.UrlUnparse | tests/scripts/process_schemas.py:404 | `urlunparse` writes a non-empty scheme followed by `:` first, and without a scheme a non-empty network location comes first after `//` |
| Urls.NormalizePath | tests/scripts/process_schemas.py:404 | the dot-segment removal of `urljoin` never yields an empty path, and an absolute path with no `.` or `..` segment, empty segments included, comes back unchanged |
| Urls.NormalizeCleanPath | tests/scripts/process_schemas.py:404 | `urljoin`'s dot-segment removal leaves unchanged an absolute path without a leading `//` and without `.` or `..` segments, empty middle segments included |
| Urls.NormalizeKeepsEmptySegment | tests/scripts/process_schemas.py:404 | an empty middle segment survives the removal: `/a//b` stays `/a//b` |
| Urls.NormalizeResolvesDots | tests/scripts/process_schemas.py:404 | `.` is dropped and `..` removes the segment before it: `/a/./b/../c` becomes `/a/c` for any plain segments `a`, `b`, `c` |
| Urls.ParseHostUrl | tests/scripts/process_schemas.py:404 | `scheme://host` followed by an empty or absolute path parses back into that lower-case scheme and that host |
| Urls.UrlJoinHostPath | tests/scripts/process_schemas.py:404 | joining a clean absolute path onto `scheme://host` + any path, for a scheme that allows relative references, gives `scheme://host` followed by the joined path: the base's own path plays no part |
| Urls.JoinBarePath | tests/scripts/process_schemas.py:404 | such a join keeps the base's scheme and host and takes the reference's normalised path, with no parameters, query or fragment |
| Reference.DropPrefixLength | tests/scripts/process_schemas.py:405 | slicing by the id's length removes the id when it is a prefix, and gives the empty string when the id is at least as long |
| Reference.InheritToSource | tests/scripts/process_schemas.py:380-409 | a reference with a scheme other than `file` or empty is returned as it is; the only failure is a missing base; the relative and absolute branches are stated by `Reference.RelativeReference` and `Reference.AbsoluteReference` |
| Reference.RelativeReference | tests/scripts/process_schemas.py:407-408 | a plain relative reference is joined onto the directory of the document that holds it |
| Reference.RelativeReferenceExamples | tests/scripts/process_schemas.py:407-408 | with `self` = `a/b` a relative reference `r` gives `a/b/r`, and with an empty `self` it gives `r` |
| Reference.RelativeReferenceNeedsSelf | tests/scripts/process_schemas.py:407-408 | a relative reference fails when `bases` has no `self` |
| Reference.AbsoluteReference | tests/scripts/process_schemas.py:399-406 | an absolute reference under the id `scheme://host` + path resolves to `dir` joined with what is left of `scheme://host` + reference after cutting the id's length; when the id's path is a prefix of the reference, that is the reference after the id's path |
| Reference.EmptySegmentLeavesDir | tests/scripts/process_schemas.py:399-406 | an absolute reference `/p//c` under the id `scheme://host/p/` maps to `/c`, not to a path under the base directory: the empty segment kept by `urljoin` makes the cut leave an absolute path, which `os.path.join` keeps over the directory |
| PosixPath.Join | tests/scripts/process_schemas.py:406 | an absolute second part replaces the first; otherwise the result starts with the first part and ends with the second |
| PosixPath.DirName | tests/scripts/process_schemas.py:559 | the directory is a prefix of the path, is empty when the path has no `/`, and has no trailing `/` unless it is all slashes |
| PosixPath.JoinDirName | tests/scripts/process_schemas.py:558-559 | the directory of a file name joined onto a directory is that directory again |
| PosixPath.SplitExt | tests/scripts/process_schemas.py:642 | root and extension concatenate to the path; the extension is empty or one dot followed by text without `.` or `/` |
| PosixPath.SplitExtOfAddedExtension | tests/scripts/process_schemas.py:185 | `splitext` undoes the appending of `.` + extension when the last path component has a character other than a dot |
| PosixPath.CommonPrefix | tests/scripts/process_schemas.py:637 | the result is a prefix of both strings and stops at the end of one or at the first differing character |
| PosixPath.CommonPrefixIsLongest | tests/scripts/process_schemas.py:637 | every common prefix is a prefix of the result |
| PosixPath.CommonPrefixSymmetric | tests/scripts/process_schemas.py:637 | the order of the two strings does not matter |
| Trees.PyIn | tests/scripts/process_schemas.py:565 | `key in value` is key membership for a dict and element equality for a list; it fails only for a value that is not a dict, list or string |
| Directives.ApplyKeep | tests/scripts/process_schemas.py:562-567 | succeeds exactly when there is no `$$keep`, or when there is a `$$exclude` key and `$$keep` lists itself; the result keeps exactly the keys `in` the keep value, drops `$$keep`, and changes no value |
| Directives.KeepList | tests/scripts/process_schemas.py:562-567 | a keep list that names itself leaves exactly the listed keys the document has |
| Directives.KeepWithoutExcludeFails | tests/scripts/process_schemas.py:563 | `$$keep` without a `$$exclude` key always fails |
| Directives.KeepMustListItself | tests/scripts/process_schemas.py:564-567 | a keep list that does not name `$$keep` always fails |
| Directives.ApplyExclude | tests/scripts/process_schemas.py:569-572 | succeeds exactly when `$$exclude` is absent or an empty list, string or dict, and then changes nothing |
| Directives.SplitPointer | tests/scripts/process_schemas.py:572 | the segments joined with `/` give the pointer back; no segment holds an unescaped `/`, and only the last may end in a backslash |
| Directives.SplitPointerOfJoin | tests/scripts/process_schemas.py:572 | splitting a join of such segments returns the segments, so the split is determined by those properties |
| Directives.EscapedSlashExample | tests/scripts/process_schemas.py:572 | `a/b\/c` splits into `a` and `b\/c` |
| Directives.DeleteAt | tests/scripts/process_schemas.py:573-580 | the walk succeeds exactly when the path leads through dicts to an existing key; it removes that key and leaves every other entry along the way unchanged |
| Directives.DeleteAtRemovesPath | tests/scripts/process_schemas.py:573-580 | after a successful delete, the path no longer leads anywhere |
| Directives.ExcludePointers | tests/scripts/process_schemas.py:571-580 | no pointers change nothing, and deletions never add a key |
| Directives.ExcludePointersRemove | tests/scripts/process_schemas.py:571-580 | after the pointer walk succeeds, none of the listed paths leads anywhere in the result |
| Directives.ExcludePointersAddNoPath | tests/scripts/process_schemas.py:571-580 | the pointer walk never makes a path exist that did not exist before |
| Directives.DeleteAtAddsNoPath | tests/scripts/process_schemas.py:573-580 | one delete never makes a path exist that did not exist before |
| Directives.ExcludeTopLevelKey | tests/scripts/process_schemas.py:571-580 | a pointer without `/` deletes that top-level key, and fails when the key is missing |
| Directives.KeepExampleFails | tests/scripts/process_schemas.py:562-567 | the input `$$keep: ["a", "c"]` with `$$exclude: ["c/d"]`, the use of `$$keep` as a list of keys to import, fails at the keep step because the list does not name `$$keep` |
| Directives.ExcludeExample | tests/scripts/process_schemas.py:571-580 | on what that keep list would leave, the path walk with the pointer `c/d` deletes `d` inside `c` and nothing else |
| Engine.HandleInherit | tests/scripts/process_schemas.py:474-480 | success means the reference mapped to a loadable source; the result is that document, with the substitutions applied when there are any (which needs a dict) |
| Engine.RewriteSchema | tests/scripts/process_schemas.py:586-588 | `$$schema` is gone and `$schema` is its string plus `.` and the output format; it fails exactly when `$$schema` is not a string; no other key changes |
| Engine.HandleAll | tests/scripts/process_schemas.py:506-602 | a value that is not a dict or list fails; a list keeps its length; a dict stays a dict; every result is free of `$$inherit` and `$$schema` at every depth, and free of nulls in dicts when `remove_null` is set |
| Engine.HandleItems | tests/scripts/process_schemas.py:534-538 | the list keeps its length, and its non-container elements keep their place and value |
| Engine.HandleObject | tests/scripts/process_schemas.py:540-599 | every ordinary key of the dict survives, keeping its scalar value unless it is a null being removed; `$schema` is set from `$$schema` at level 0; an inner `$schema` is dropped on request |
| Engine.Prepare | tests/scripts/process_schemas.py:542-591 | before the children are visited, the directives are gone, the ordinary keys and their non-dict values are all still there, and without a followed inherit no new container appears |
| Engine.ResolveInherit | tests/scripts/process_schemas.py:542-584 | a list succeeds only when empty; a value that is neither list nor string fails; `$$inherit` is removed; the inheritor's keys and non-dict values all survive |
| Engine.ResolveDocument | tests/scripts/process_schemas.py:555-580 | the loaded document comes out without `$$inherit` or `$$schema`, and each value is resolved |
| Engine.HandleEntries | tests/scripts/process_schemas.py:593-597 | the keys are those of the dict minus the null ones when `remove_null` is set; scalars are kept; dicts stay dicts and lists stay lists; every value is resolved |
| EngineFacts.ResolvedIsFixpoint | tests/scripts/process_schemas.py:506-602 | a resolved tree (null-free when nulls are removed) is returned unchanged, for any bases, substitutions, loader and fuel |
| EngineFacts.ItemsFixpoint | tests/scripts/process_schemas.py:534-538 | a list of resolved elements is returned unchanged |
| EngineFacts.ObjectFixpoint | tests/scripts/process_schemas.py:540-599 | a resolved dict is returned unchanged |
| EngineFacts.Idempotent | tests/scripts/process_schemas.py:506-602 | resolving a result again gives the same result, whatever bases, substitutions, loader and fuel the second call uses |
| EngineFacts.CleanInnerSchemasInert | tests/scripts/process_schemas.py:590-591 | because every recursive call passes level 0, `clean_inner_schemas` never changes the result of a top-level call |
| EngineFacts.ItemsInert | tests/scripts/process_schemas.py:536-537 | the list branch does not depend on `clean_inner_schemas` |
| EngineFacts.ObjectInert | tests/scripts/process_schemas.py:540-599 | the dict branch at level 0 does not depend on `clean_inner_schemas` |
| EngineFacts.PrepareInert | tests/scripts/process_schemas.py:542-591 | the steps before the children do not depend on `clean_inner_schemas` at level 0 |
| EngineFacts.InheritInert | tests/scripts/process_schemas.py:542-584 | the `$$inherit` step does not depend on `clean_inner_schemas` |
| EngineFacts.LoadedInert | tests/scripts/process_schemas.py:554-582 | once a document is loaded, its resolution and merge do not depend on `clean_inner_schemas` |
| EngineFacts.InheritLoaded | tests/scripts/process_schemas.py:554-584 | a loaded dict is resolved on its own and merged without replacing, then `$$inherit` is dropped; a failure of the loaded document is the failure of the step |
| EngineFacts.ExcludeKeyIsMerged | tests/scripts/process_schemas.py:569-584 | the loaded document's `$$exclude` key is checked but never deleted, so it is merged into an inheritor that has none |
| EngineFacts.DocumentInert | tests/scripts/process_schemas.py:557-580 | resolving a loaded document does not depend on `clean_inner_schemas` |
| EngineFacts.EntriesInert | tests/scripts/process_schemas.py:593-597 | the loop over a dict's values does not depend on `clean_inner_schemas` |
| EngineFacts.ListInheritFails | tests/scripts/process_schemas.py:544-551 | a non-empty list under `$$inherit` always fails, because the loop variable is rebound to the whole list |
| EngineFacts.UnlocatableInheritFails | tests/scripts/process_schemas.py:542-554 | a string `$$inherit` whose reference cannot be turned into a source fails the whole dict with that error |
| EngineFacts.EmptyInheritListIsDropped | tests/scripts/process_schemas.py:544-584 | an empty list under `$$inherit` is deleted and has no other effect |
| EngineFacts.InheritFlatDocument | tests/scripts/process_schemas.py:542-584 | inheriting a flat document of plain values into a flat dict gives every key of either, with the inheritor's value winning on a clash |
| EngineFacts.PlainFollowedObject | tests/scripts/process_schemas.py:593-597 | a dict that followed an inherit and has only plain values left comes out as it is |
| EngineFacts.EntriesOfPlainValuesLessFuel | tests/scripts/process_schemas.py:593-597 | plain values need no fuel: a dict of them is its own resolution with the reduced fuel of a followed dict's children |
| EngineFacts.FollowedEntries | tests/scripts/process_schemas.py:540-599 | the dict branch of a followed dict is its first stage followed by the loop over the children, with one unit of fuel less |
| EngineFacts.PrepareAfterInherit | tests/scripts/process_schemas.py:586-591 | without `$$schema` and at level 0, the first stage is the `$$inherit` step alone |
| EngineFacts.FlatResolveInherit | tests/scripts/process_schemas.py:554-584 | inheriting a flat document without directives merges that document as loaded |
| EngineFacts.FlatDocumentResolves | tests/scripts/process_schemas.py:555-580 | a loaded dict of plain values without directives resolves to itself |
| EngineFacts.EntriesOfPlainValues | tests/scripts/process_schemas.py:593-597 | a dict of plain values is its own resolution |
| EngineFacts.EntriesDropNulls | tests/scripts/process_schemas.py:593-597 | when every container value resolves to itself, the loop keeps every value and drops exactly the null ones when `remove_null` is set |
| EngineFacts.RemoveNullExample | tests/scripts/process_schemas.py:593-597 | with `remove_null`, `{"a": null, "b": [null]}` becomes `{"b": [null]}`: nulls in lists stay |
| EngineFacts.NullEntryDropped | tests/scripts/process_schemas.py:596-597 | the loop drops the null entry of `{"a": null, "b": [null]}` and keeps the list |
| FuelFacts.MoreFuel | tests/scripts/process_schemas.py:506-602 | more fuel never changes a successful result: the bound only cuts off nesting the source would follow further |
| FuelFacts.ItemsMoreFuel | tests/scripts/process_schemas.py:534-538 | the same for the loop over a list |
| FuelFacts.ObjectMoreFuel | tests/scripts/process_schemas.py:540-599 | the same for the dict branch |
| FuelFacts.PrepareMoreFuel | tests/scripts/process_schemas.py:542-591 | the same for the steps before the children |
| FuelFacts.InheritMoreFuel | tests/scripts/process_schemas.py:542-584 | the same for the `$$inherit` step |
| FuelFacts.LoadedMoreFuel | tests/scripts/process_schemas.py:554-584 | the same once a document is loaded |
| FuelFacts.DocumentMoreFuel | tests/scripts/process_schemas.py:555-580 | the same for the resolution of a loaded document |
| FuelFacts.EntriesMoreFuel | tests/scripts/process_schemas.py:593-597 | the same for the loop over a dict's values |
| Driver.SelfDir | tests/scripts/process_schemas.py:629-630 | `self` is a prefix of the path part of the source |
| Driver.SelfDirOfPlainPath | tests/scripts/process_schemas.py:629-630 | for a plain file path `self` is its `os.path.dirname`, and the empty string when it has no `/` |
| Driver.RelSource | tests/scripts/process_schemas.py:636-640 | without a base directory the relative source is the source; with one, the common prefix followed by it is the source |
| Driver.CutSuffix | tests/scripts/process_schemas.py:645 | cutting a suffix leaves the part before it, and Python's `[:-0]` gives the empty string |
| Driver.MatchedSuffix | tests/scripts/process_schemas.py:641-643 | the suffix found is the relative source or its root without extension, and it ends `$id`; none is found exactly when neither ends `$id` |
| Driver.DeriveId | tests/scripts/process_schemas.py:641-645 | fails exactly when no suffix matches, naming the root without extension; otherwise the derived id followed by the matched suffix is `$id` |
| Driver.Process | tests/scripts/process_schemas.py:605-649 | a missing source fails to load; a result is resolved, null-free when asked, and a dict for a dict document; a document that is not a dict or list fails |
| Driver.ProcessKeepsGivenBases | tests/scripts/process_schemas.py:628-647 | without `$id`, or with a base id given, the document is resolved with the given id and directory and `self` set to the directory of its path |
| Driver.ProcessDerivesBases | tests/scripts/process_schemas.py:635-647 | with no base id and a matching `$id`, the document is resolved with the derived id, which completes to `$id`, the given directory, and no `self` |
| Driver.ProcessRejectsForeignId | tests/scripts/process_schemas.py:641-644 | a `$id` that the relative source does not account for is an error |
| Driver.DerivedBasesBreakRelativeInherit | tests/scripts/process_schemas.py:645 | with derived bases, a relative `$$inherit` at the top of the document fails for want of `self` |
| Driver.CommonPrefixOfExtension | tests/scripts/process_schemas.py:637 | the common prefix of a string and an extension of it is the string |
| Driver.DeriveIdStripsExtension | tests/scripts/process_schemas.py:640-645 | when `$id` is a base id followed by the relative source without its extension, that base id is recovered |
| Driver.RelSourceExample | tests/scripts/process_schemas.py:636-640 | with base directory `schemas/`, the source `schemas/core/Prop.json` has relative source `core/Prop.json` |
| Validate.SelectSchema | tests/scripts/process_schemas.py:177-191 | an explicit schema wins; otherwise `$schema` is looked up as it is, then without its extension; a missing `$schema` or an unknown id is an error |
| Validate.RewrittenSchemaIsFound | tests/scripts/process_schemas.py:183-187 | a document whose `$$schema` names a registered id is validated against that schema after `handle_all` appended the output format |

## Left out

- Reading documents (`read_data`: files, URLs, format detection, extension probing) is replaced by the loader's map from sources to parsed trees.
- JSON and YAML parsing and writing (`output_str`) are not modelled. Documents are already-parsed trees, and numbers keep their literal text.
- `data_to_md` and the Markdown output are not modelled, because they are output formatting and not part of directive resolution.
- The `ExceptionWrapper` class, the error messages and logging are not modelled. Each failure is one error kind.
- The `jsonschema` check inside `validate` is an external library call; only the schema lookup before it is modelled.
- `process_dir` (walking a directory tree) and the command-line handling in `main`, including `force_schema` and how `subs` is built, are left out. The substitutions are an ordered table, or None.
- `handle_inherit`'s "retain" and "rewrite" modes are left out: `handle_all` only ever passes "insert".
- Dict key order is not modelled. When several values of a dict fail, the model reports `Nested`; Python raises the first failure in key order.
- Aliasing between parsed YAML nodes is not modelled; every tree is a value.
- Engine.HandleAll: the fuel bound on how deeply followed `$$inherit` references nest has no counterpart in the source, which recurses until Python's stack overflows on a cycle; `FuelFacts.MoreFuel` shows that a successful result does not depend on the bound.
- Engine.ResolveInherit: a falsy non-string `$$inherit` such as null gets through `urlparse` as bytes in Python and then fails later, in loading. The model fails it at once, as `InheritNotString`.
- Urls.UrlParse: control-character stripping, the validation of brackets in the network location, and the `urlsplit` cache are not modelled.
- Urls.UrlJoinAbsPath: only a reference that is an absolute path is modelled, the only form `inherit_to_source` passes. Its own contract states only the empty base; the joins onto a base are stated by separate lemmas for a base of the form `scheme://host` + path.
- Reference.InheritToSource: its own contract states the pass-through and the failure; the two branches that build a source are stated by separate lemmas, and the absolute branch only for an id of the form `scheme://host` + path.

=== FILE: directives.dfy ===
/** The two directives `handle_all` applies to a loaded document before it is
    merged: `$$keep` (a filter on the top-level keys) and `$$exclude` (a list
    of `/`-separated paths to delete). Both are written as the code behaves,
    and the path split and delete walk that `$$exclude` would perform are
    given as separate helpers. */
module Directives {
  import opened Text
  import opened Trees

  /** The `$$keep` step on a loaded dict. It reads `$$exclude` for its log
      message before doing anything else, then deletes every key that is not
      `in` the keep value, `$$keep` included unless it lists itself, and
      finally deletes `$$keep`; a deleted `$$keep` makes the next lookup of it
      raise. */
  function ApplyKeep(doc: map<string, Tree>): (r: Result<map<string, Tree>>)
    ensures "$$keep" !in doc ==> r == Ok(doc)
    ensures r.Ok? <==> ("$$keep" !in doc || ("$$exclude" in doc && PyIn("$$keep", doc["$$keep"]) == Ok(true)))
    ensures r.Ok? && "$$keep" in doc ==> "$$keep" !in r.value
    ensures r.Ok? ==> forall k | k in r.value :: k in doc && r.value[k] == doc[k]
    ensures r.Ok? && "$$keep" in doc ==>
      forall k | k in doc && k != "$$keep" :: k in r.value <==> PyIn(k, doc["$$keep"]) == Ok(true)
  {
    if "$$keep" !in doc then Ok(doc)
    else if "$$exclude" !in doc then Err(KeepFailed)
    else
      var keep := doc["$$keep"];
      var listsItself :- PyIn("$$keep", keep);
      if !listsItself then Err(KeepFailed)
      else Ok(map k | k in doc && k != "$$keep" && PyIn(k, keep) == Ok(true) :: doc[k])
  }

  /** The strings of a list. */
  function Strings(items: seq<Tree>): set<string> {
    set i | 0 <= i < |items| && items[i].Str? :: items[i].s
  }

  /** With a list of names that includes `$$keep`, and a `$$exclude` key
      present, exactly the listed keys the document has remain. */
  lemma KeepList(doc: map<string, Tree>, names: seq<Tree>)
    requires "$$keep" in doc && doc["$$keep"] == List(names) && "$$exclude" in doc
    requires Str("$$keep") in names
    ensures ApplyKeep(doc).Ok?
    ensures ApplyKeep(doc).value.Keys == doc.Keys * Strings(names) - {"$$keep"}
  {
    var r := ApplyKeep(doc).value;
    forall k | k in doc && k != "$$keep"
      ensures k in r <==> k in Strings(names)
    {
      if Str(k) in names {
        var i :| 0 <= i < |names| && names[i] == Str(k);
        assert names[i].s in Strings(names);
      }
    }
  }

  /** `$$keep` next to `$$inherit`, as the module docstring of
      `process_schemas.py` describes it, fails without a `$$exclude` key,
      whatever the list says. */
  lemma KeepWithoutExcludeFails(doc: map<string, Tree>)
    requires "$$keep" in doc && "$$exclude" !in doc
    ensures ApplyKeep(doc) == Err(KeepFailed)
  {
  }

  /** A keep list that does not name `$$keep` itself always fails. */
  lemma KeepMustListItself(doc: map<string, Tree>, names: seq<Tree>)
    requires "$$keep" in doc && doc["$$keep"] == List(names) && Str("$$keep") !in names
    ensures ApplyKeep(doc).Err?
  {
  }

  /** Iterating over a value: the elements of a list, the characters of a
      string, the keys of a dict, and a TypeError for anything else. */
  predicate IsEmptyIterable(t: Tree) {
    (t.List? && |t.items| == 0) || (t.Str? && |t.s| == 0) || (t.Obj? && |t.fields| == 0)
  }

  /** The `$$exclude` step as written: the loop body starts with `re.split`,
      and `re` is never imported, so only an empty iterable gets through, and
      the `$$exclude` key stays in the document. */
  function ApplyExclude(doc: map<string, Tree>): (r: Result<map<string, Tree>>)
    ensures r.Ok? <==> ("$$exclude" !in doc || IsEmptyIterable(doc["$$exclude"]))
    ensures r.Ok? ==> r.value == doc
    ensures r.Err? ==> (r.error == ExcludeFailed <==> (doc["$$exclude"].List? || doc["$$exclude"].Str? || doc["$$exclude"].Obj?))
  {
    if "$$exclude" !in doc then Ok(doc)
    else
      var v := doc["$$exclude"];
      if IsEmptyIterable(v) then Ok(doc)
      else if v.List? || v.Str? || v.Obj? then Err(ExcludeFailed)
      else Err(TypeMismatch)
  }

  /** `re.split(r'(?<!\\)/', s)` splits at a slash whose preceding character
      is not a backslash; the backslash is kept. */
  predicate UnescapedSlashAt(s: string, i: int)
    requires 0 <= i < |s|
  {
    s[i] == '/' && (i == 0 || s[i - 1] != '\\')
  }

  predicate NoUnescapedSlash(s: string) {
    forall i | 0 <= i < |s| :: !UnescapedSlashAt(s, i)
  }

  function FirstUnescapedSlash(s: string, from: nat): (i: int)
    requires from <= |s|
    ensures i == -1 || (from <= i < |s| && UnescapedSlashAt(s, i))
    ensures forall j | from <= j < (if i == -1 then |s| else i) :: !UnescapedSlashAt(s, j)
    decreases |s| - from
  {
    if from == |s| then -1
    else if UnescapedSlashAt(s, from) then from
    else FirstUnescapedSlash(s, from + 1)
  }

  /** The segments of an `$$exclude` pointer. Joined with `/` they give the
      pointer back; no segment holds a split point, and only the last may end
      in a backslash (otherwise the slash after it would not split). */
  function SplitPointer(s: string): (parts: seq<string>)
    ensures |parts| >= 1
    ensures Join(parts, "/") == s
    ensures forall j | 0 <= j < |parts| :: NoUnescapedSlash(parts[j])
    ensures forall j | 0 <= j < |parts| - 1 :: !IsSuffix("\\", parts[j])
    decreases |s|
  {
    var i := FirstUnescapedSlash(s, 0);
    if i == -1 then [s]
    else
      var head := s[..i];
      var rest := SplitPointer(s[i + 1..]);
      assert NoUnescapedSlash(head) by {
        forall j | 0 <= j < |head|
          ensures !UnescapedSlashAt(head, j)
        {
          assert !UnescapedSlashAt(s, j);
        }
      }
      assert s == head + "/" + s[i + 1..];
      [head] + rest
  }

  /** The split is the only one with those three properties: splitting a
      join of such segments gives the segments back. */
  lemma {:induction false} SplitPointerOfJoin(parts: seq<string>)
    requires |parts| >= 1
    requires forall j | 0 <= j < |parts| :: NoUnescapedSlash(parts[j])
    requires forall j | 0 <= j < |parts| - 1 :: !IsSuffix("\\", parts[j])
    ensures SplitPointer(Join(parts, "/")) == parts
    decreases |parts|
  {
    var s := Join(parts, "/");
    var i := FirstUnescapedSlash(s, 0);
    if |parts| == 1 {
      assert s == parts[0];
    } else {
      var p0 := parts[0];
      var tail := Join(parts[1..], "/");
      assert s == p0 + "/" + tail;
      var n := |p0|;
      assert UnescapedSlashAt(s, n) by {
        if n > 0 {
          assert s[n - 1] == p0[n - 1];
          assert p0[n - 1..] == [p0[n - 1]];
        }
      }
      forall j | 0 <= j < n
        ensures !UnescapedSlashAt(s, j)
      {
        assert s[j] == p0[j];
        assert j > 0 ==> s[j - 1] == p0[j - 1];
        assert !UnescapedSlashAt(p0, j);
      }
      assert i == n;
      assert s[..n] == p0;
      assert s[n + 1..] == tail;
      SplitPointerOfJoin(parts[1..]);
    }
  }

  /** A backslash before a slash keeps the slash inside its segment. */
  lemma EscapedSlashExample()
    ensures SplitPointer("a/b\\/c") == ["a", "b\\/c"]
  {
    var parts := ["a", "b\\/c"];
    assert Join(parts, "/") == "a/b\\/c";
    assert !UnescapedSlashAt(parts[1], 1);
    assert NoUnescapedSlash(parts[1]);
    assert NoUnescapedSlash(parts[0]);
    SplitPointerOfJoin(parts);
  }

  /** The path `segs` leads through dicts to an existing key. */
  ghost predicate PathExists(t: Tree, segs: seq<string>)
    decreases |segs|
  {
    |segs| >= 1 && t.Obj? && segs[0] in t.fields &&
    (|segs| == 1 || PathExists(t.fields[segs[0]], segs[1..]))
  }

  /** The walk of one pointer: every segment but the last is looked up with
      `in` and indexing, starting from the loaded document, and the last key
      is deleted from the dict reached. A missing key raises, and so does a
      lookup or deletion on a list or a string. */
  function DeleteAt(loc: Tree, segs: seq<string>): (r: Result<Tree>)
    requires |segs| >= 1
    ensures r.Ok? <==> PathExists(loc, segs)
    ensures r.Ok? ==> r.value.Obj? && loc.Obj?
    ensures r.Ok? ==> r.value.fields.Keys == if |segs| == 1 then loc.fields.Keys - {segs[0]} else loc.fields.Keys
    ensures r.Ok? ==> forall k | k in loc.fields && k != segs[0] :: r.value.fields[k] == loc.fields[k]
    ensures r.Ok? && |segs| > 1 ==> DeleteAt(loc.fields[segs[0]], segs[1..]) == Ok(r.value.fields[segs[0]])
    decreases |segs|
  {
    if |segs| == 1 then
      if loc.Obj? && segs[0] in loc.fields then Ok(Obj(loc.fields - {segs[0]}))
      else if loc.Obj? then Err(PointerInvalid)
      else Err(TypeMismatch)
    else
      var present :- PyIn(segs[0], loc);
      if !present then Err(PointerInvalid)
      else if !loc.Obj? then Err(TypeMismatch)
      else
        var inner :- DeleteAt(loc.fields[segs[0]], segs[1..]);
        Ok(Obj(loc.fields[segs[0] := inner]))
  }

  /** After a successful delete the path no longer leads anywhere. */
  lemma {:induction false} DeleteAtRemovesPath(loc: Tree, segs: seq<string>)
    requires |segs| >= 1 && PathExists(loc, segs)
    ensures !PathExists(DeleteAt(loc, segs).value, segs)
    decreases |segs|
  {
    if |segs| > 1 {
      DeleteAtRemovesPath(loc.fields[segs[0]], segs[1..]);
    }
  }

  /** The `$$exclude` loop: the pointers are applied one after the other to
      the same document, so a later pointer sees the earlier deletions. */
  function ExcludePointers(doc: map<string, Tree>, pointers: seq<string>): (r: Result<map<string, Tree>>)
    ensures pointers == [] ==> r == Ok(doc)
    ensures r.Ok? ==> r.value.Keys <= doc.Keys
    decreases |pointers|
  {
    if |pointers| == 0 then Ok(doc)
    else
      var t :- DeleteAt(Obj(doc), SplitPointer(pointers[0]));
      ExcludePointers(t.fields, pointers[1..])
  }

  /** A delete never makes a path exist that did not exist before. */
  lemma {:induction false} DeleteAtAddsNoPath(loc: Tree, segs: seq<string>, path: seq<string>)
    requires |segs| >= 1 && DeleteAt(loc, segs).Ok?
    ensures PathExists(DeleteAt(loc, segs).value, path) ==> PathExists(loc, path)
    decreases |segs|
  {
    var out := DeleteAt(loc, segs).value;
    if PathExists(out, path) && |path| > 1 && path[0] == segs[0] && |segs| > 1 {
      DeleteAtAddsNoPath(loc.fields[segs[0]], segs[1..], path[1..]);
    }
  }

  /** Running the pointers never makes a path exist that did not exist before. */
  lemma {:induction false} ExcludePointersAddNoPath(doc: map<string, Tree>, pointers: seq<string>, path: seq<string>)
    requires ExcludePointers(doc, pointers).Ok?
    ensures PathExists(Obj(ExcludePointers(doc, pointers).value), path) ==> PathExists(Obj(doc), path)
    decreases |pointers|
  {
    if |pointers| > 0 {
      var t := DeleteAt(Obj(doc), SplitPointer(pointers[0])).value;
      ExcludePointersAddNoPath(t.fields, pointers[1..], path);
      DeleteAtAddsNoPath(Obj(doc), SplitPointer(pointers[0]), path);
    }
  }

  /** After the pointers ran without failing, none of their paths exists. */
  lemma {:induction false} ExcludePointersRemove(doc: map<string, Tree>, pointers: seq<string>)
    requires ExcludePointers(doc, pointers).Ok?
    ensures forall i | 0 <= i < |pointers| :: !PathExists(Obj(ExcludePointers(doc, pointers).value), SplitPointer(pointers[i]))
    decreases |pointers|
  {
    if |pointers| > 0 {
      var segs := SplitPointer(pointers[0]);
      var t := DeleteAt(Obj(doc), segs).value;
      var r := ExcludePointers(doc, pointers).value;
      assert r == ExcludePointers(t.fields, pointers[1..]).value;
      ExcludePointersRemove(t.fields, pointers[1..]);
      DeleteAtRemovesPath(Obj(doc), segs);
      ExcludePointersAddNoPath(t.fields, pointers[1..], segs);
      forall i | 1 <= i < |pointers|
        ensures !PathExists(Obj(r), SplitPointer(pointers[i]))
      {
        assert pointers[i] == pointers[1..][i - 1];
      }
    }
  }

  /** A pointer without a slash deletes that top-level key, and fails when
      the key is missing. */
  lemma ExcludeTopLevelKey(doc: map<string, Tree>, key: string)
    requires '/' !in key
    ensures key in doc ==> ExcludePointers(doc, [key]) == Ok(doc - {key})
    ensures key !in doc ==> ExcludePointers(doc, [key]) == Err(PointerInvalid)
  {
    assert NoUnescapedSlash(key) by {
      forall i | 0 <= i < |key|
        ensures !UnescapedSlashAt(key, i)
      {
        assert key[i] in key;
      }
    }
    SplitPointerOfJoin([key]);
    assert SplitPointer(key) == [key];
  }

  /** An illustrative filter, `$$keep: ["a", "c"]` with `$$exclude: ["c/d"]`,
      fails: the keep list does not name `$$keep` itself. */
  lemma KeepExampleFails()
    ensures ApplyKeep(map["a" := Num("1"), "b" := Num("2"),
                          "c" := Obj(map["d" := Num("3"), "e" := Num("4")]),
                          "$$keep" := List([Str("a"), Str("c")]),
                          "$$exclude" := List([Str("c/d")])]) == Err(KeepFailed)
  {
    var names := [Str("a"), Str("c")];
    assert Str("$$keep") !in names;
  }

  /** The path walk on what that keep list would leave, `a` and `c`: the
      pointer `c/d` deletes `d` inside `c` and nothing else. */
  lemma ExcludeExample()
    ensures ExcludePointers(map["a" := Num("1"), "c" := Obj(map["d" := Num("3"), "e" := Num("4")])], ["c/d"])
         == Ok(map["a" := Num("1"), "c" := Obj(map["e" := Num("4")])])
  {
    var parts := ["c", "d"];
    assert NoUnescapedSlash(parts[0]) && NoUnescapedSlash(parts[1]);
    assert Join(parts, "/") == "c/d";
    SplitPointerOfJoin(parts);
    var inner := map["d" := Num("3"), "e" := Num("4")];
    assert inner - {"d"} == map["e" := Num("4")];
    var doc := map["a" := Num("1"), "c" := Obj(inner)];
    assert doc["c" := Obj(map["e" := Num("4")])] == map["a" := Num("1"), "c" := Obj(map["e" := Num("4")])];
  }
}

=== FILE: driver.dfy ===
/** `process(source, bases, subs, args)`: loads one document, fixes `self`
    to the directory of its own path and, when no base id was given, derives
    the base id from the document's `$id`, then resolves the document. */
module Driver {
  import opened Text
  import opened Trees
  import PosixPath
  import Urls
  import opened Reference
  import opened Engine
  import EngineFacts

  /** `source[len(prefix):]`, the prefix being the character-wise common
      prefix of the base directory and the source, or empty without a base
      directory. */
  function RelSource(source: string, dir: Option<string>): (r: string)
    ensures dir.None? ==> r == source
    ensures dir.Some? ==> PosixPath.CommonPrefix(dir.value, source) + r == source
    ensures IsSuffix(r, source)
  {
    match dir
    case None => source
    case Some(d) =>
      var prefix := PosixPath.CommonPrefix(d, source);
      assert source == prefix + source[|prefix|..];
      source[|prefix|..]
  }

  /** `s[:-len(suffix)]`. Python reads `[:-0]` as `[:0]`, so an empty suffix
      gives the empty string rather than `s`. */
  function CutSuffix(s: string, suffix: string): (r: string)
    ensures suffix == [] ==> r == []
    ensures suffix != [] && IsSuffix(suffix, s) ==> r + suffix == s
  {
    if |suffix| == 0 then ""
    else if |suffix| <= |s| then s[..|s| - |suffix|]
    else ""
  }

  /** The suffix of `$id` the relative source accounts for: the relative
      source itself, else the relative source without its extension. */
  function MatchedSuffix(idUri: string, rel: string): (r: Option<string>)
    ensures r.Some? ==> IsSuffix(r.value, idUri)
    ensures r.Some? ==> r.value == rel || r.value == PosixPath.SplitExt(rel).0
    ensures r.None? <==> !IsSuffix(rel, idUri) && !IsSuffix(PosixPath.SplitExt(rel).0, idUri)
  {
    if IsSuffix(rel, idUri) then Some(rel)
    else if IsSuffix(PosixPath.SplitExt(rel).0, idUri) then Some(PosixPath.SplitExt(rel).0)
    else None
  }

  /** The base id derived from `$id`: what is left after cutting the matched
      suffix off, so that base id + suffix == `$id` (or the empty string when
      the suffix is empty). The error names the extension-less relative
      source, as the message at line 643 does. */
  function DeriveId(idUri: string, rel: string): (r: Result<string>)
    ensures r.Err? <==> MatchedSuffix(idUri, rel).None?
    ensures r.Err? ==> r.error == IdMismatch(PosixPath.SplitExt(rel).0)
    ensures r.Ok? && MatchedSuffix(idUri, rel).value != "" ==> r.value + MatchedSuffix(idUri, rel).value == idUri
    ensures r.Ok? && MatchedSuffix(idUri, rel).value == "" ==> r.value == ""
  {
    if IsSuffix(rel, idUri) then Ok(CutSuffix(idUri, rel))
    else
      var stem := PosixPath.SplitExt(rel).0;
      if IsSuffix(stem, idUri) then Ok(CutSuffix(idUri, stem))
      else Err(IdMismatch(stem))
  }

  /** `self` for the top-level document: the directory part of the path of
      the source read as a URL. */
  function SelfDir(source: string): (r: string)
    ensures IsPrefix(r, Urls.UrlParse(source, "").path)
  {
    PosixPath.DirName(Urls.UrlParse(source, "").path)
  }

  /** For a plain file path (no `:`, `;`, `?`, `#`, no leading `//`) `self`
      is the directory of the path itself: a source `core/Prop.json` gets
      `core`, and one without `/` gets the empty string. */
  lemma SelfDirOfPlainPath(source: string)
    requires ':' !in source && ';' !in source && '?' !in source && '#' !in source && !IsPrefix("//", source)
    ensures SelfDir(source) == PosixPath.DirName(source)
    ensures '/' !in source ==> SelfDir(source) == ""
  {
    Urls.PlainPathParse(source);
  }

  /** `process`. `bases` comes from the command line and so has no `self`
      (any it has is overwritten). */
  function Process(source: string, bases: Bases, subs: Subs, cfg: Config, docs: map<string, Tree>, fuel: nat): (r: Result<Tree>)
    ensures source !in docs ==> r == Err(LoadFailed(source))
    ensures r.Ok? ==> source in docs && Resolved(r.value)
    ensures r.Ok? && cfg.removeNull ==> NullFree(r.value)
    ensures r.Ok? && source in docs && docs[source].Obj? ==> r.value.Obj?
    ensures source in docs && !IsContainer(docs[source]) ==> r.Err?
  {
    if source !in docs then Err(LoadFailed(source))
    else
      var data := docs[source];
      var loader := Standard(docs);
      var withSelf := bases.(self := Some(SelfDir(source)));
      var hasId :- PyIn("$id", data);
      if !hasId then HandleAll(data, withSelf, subs, cfg, loader, 0, fuel)
      else if !data.Obj? then Err(TypeMismatch)
      else if bases.id.Some? then HandleAll(data, withSelf, subs, cfg, loader, 0, fuel)
      else
        match data.fields["$id"]
        case Str(idUri) =>
          var newId :- DeriveId(idUri, RelSource(source, bases.dir));
          HandleAll(data, Bases(Some(newId), bases.dir, None), subs, cfg, loader, 0, fuel)
        case _ => Err(TypeMismatch)
  }

  /** Without a `$id`, or with a base id given, the document is resolved with
      the given id and directory and with `self` set from its own path. */
  lemma ProcessKeepsGivenBases(source: string, bases: Bases, subs: Subs, cfg: Config, docs: map<string, Tree>, fuel: nat)
    requires source in docs && docs[source].Obj?
    requires "$id" !in docs[source].fields || bases.id.Some?
    ensures Process(source, bases, subs, cfg, docs, fuel)
         == HandleAll(docs[source], Bases(bases.id, bases.dir, Some(SelfDir(source))), subs, cfg, Standard(docs), 0, fuel)
  {
  }

  /** With no base id and a matching `$id`, the document is resolved with the
      derived id, which completes to `$id` with the matched suffix, the given
      directory, and no `self` at all. */
  lemma ProcessDerivesBases(source: string, bases: Bases, subs: Subs, cfg: Config, docs: map<string, Tree>, fuel: nat, idUri: string)
    requires source in docs && docs[source].Obj?
    requires "$id" in docs[source].fields && docs[source].fields["$id"] == Str(idUri)
    requires bases.id.None?
    requires MatchedSuffix(idUri, RelSource(source, bases.dir)).Some?
    ensures var suffix := MatchedSuffix(idUri, RelSource(source, bases.dir)).value;
      var newId := DeriveId(idUri, RelSource(source, bases.dir)).value;
      (suffix != "" ==> newId + suffix == idUri) &&
      Process(source, bases, subs, cfg, docs, fuel)
        == HandleAll(docs[source], Bases(Some(newId), bases.dir, None), subs, cfg, Standard(docs), 0, fuel)
  {
  }

  /** A `$id` that the relative source does not account for is an error. */
  lemma ProcessRejectsForeignId(source: string, bases: Bases, subs: Subs, cfg: Config, docs: map<string, Tree>, fuel: nat, idUri: string)
    requires source in docs && docs[source].Obj?
    requires "$id" in docs[source].fields && docs[source].fields["$id"] == Str(idUri)
    requires bases.id.None?
    requires MatchedSuffix(idUri, RelSource(source, bases.dir)).None?
    ensures Process(source, bases, subs, cfg, docs, fuel)
         == Err(IdMismatch(PosixPath.SplitExt(RelSource(source, bases.dir)).0))
  {
  }

  /** Because the derived bases have no `self`, a relative `$$inherit` at the
      top of a document whose base id was derived from its `$id` fails. */
  lemma DerivedBasesBreakRelativeInherit(source: string, bases: Bases, subs: Subs, cfg: Config, docs: map<string, Tree>, fuel: nat, idUri: string, ref: string)
    requires source in docs && docs[source].Obj?
    requires "$id" in docs[source].fields && docs[source].fields["$id"] == Str(idUri)
    requires bases.id.None?
    requires MatchedSuffix(idUri, RelSource(source, bases.dir)).Some?
    requires "$$inherit" in docs[source].fields && docs[source].fields["$$inherit"] == Str(ref)
    requires ':' !in ref && ';' !in ref && '?' !in ref && '#' !in ref && !PosixPath.IsAbs(ref)
    ensures Process(source, bases, subs, cfg, docs, fuel) == Err(MissingBase)
  {
    var m := docs[source].fields;
    var newId := DeriveId(idUri, RelSource(source, bases.dir)).value;
    var derived := Bases(Some(newId), bases.dir, None);
    ProcessDerivesBases(source, bases, subs, cfg, docs, fuel, idUri);
    RelativeReferenceNeedsSelf(ref, Some(newId), bases.dir);
    assert Standard(docs).locate(ref, derived) == Err(MissingBase);
    EngineFacts.UnlocatableInheritFails(m, ref, derived, subs, cfg, Standard(docs), 0, fuel);
  }

  /** `commonprefix` of a string and an extension of it is the string. */
  lemma {:induction false} CommonPrefixOfExtension(a: string, b: string)
    ensures PosixPath.CommonPrefix(a, a + b) == a
    decreases |a|
  {
    if |a| > 0 {
      assert (a + b)[1..] == a[1..] + b;
      CommonPrefixOfExtension(a[1..], b);
    }
  }

  /** The usual layout: the `$id` is the base id followed by the relative
      source without its extension. The base id is recovered. */
  lemma {:induction false} DeriveIdStripsExtension(base: string, stem: string, ext: string)
    requires stem != "" && '.' !in ext && '/' !in ext
    requires PosixPath.HasNonDot(stem, LastIndexOf(stem, '/') + 1, |stem|)
    requires !IsSuffix(stem + "." + ext, base + stem)
    ensures DeriveId(base + stem, stem + "." + ext) == Ok(base)
  {
    PosixPath.SplitExtOfAddedExtension(stem, ext);
    var idUri := base + stem;
    assert idUri[|idUri| - |stem|..] == stem;
    assert idUri[..|idUri| - |stem|] == base;
  }

  /** With base directory `schemas/` the source `schemas/core/Prop.json` has
      the relative source `core/Prop.json`. */
  lemma RelSourceExample()
    ensures RelSource("schemas/core/Prop.json", Some("schemas/")) == "core/Prop.json"
  {
    assert "schemas/core/Prop.json" == "schemas/" + "core/Prop.json";
    CommonPrefixOfExtension("schemas/", "core/Prop.json");
  }
}

=== FILE: engine.dfy ===
/** `handle_all(data, bases, subs, args, level)`: the recursive engine that
    resolves the preprocessor directives of a document tree. A list has its
    dict and list elements resolved; a dict has, in this order, its
    `$$inherit` followed and merged, its `$$schema` rewritten to `$schema`,
    its `$schema` dropped below the top level when asked, and then each of
    its dict and list values resolved, with null values dropped when asked.

    Following `$$inherit` loads another document, so nothing bounds the
    recursion: `fuel` bounds how deeply followed references may nest (each
    sibling value gets the same fuel), and running out is the `OutOfFuel`
    error. */
module Engine {
  import opened Trees
  import PosixPath
  import Merge
  import Substitute
  import opened Reference
  import Directives

  /** The settings `handle_all` reads from `args`. */
  datatype Config = Config(outputFormat: string, removeNull: bool, cleanInnerSchemas: bool)

  /** What `handle_all` reaches outside the tree: the parsed document
      `read_data(source)[0]` of each source that can be read (a source that
      is not a key fails to load), the mapping of an `$$inherit` reference to
      a source (`inherit_to_source`), and the directory of a source
      (`os.path.dirname`). The engine's properties hold for any mapping and
      directory function; `Standard` supplies the ones of the program. */
  datatype Loader = Loader(docs: map<string, Tree>, locate: (string, Bases) -> Result<string>, dirName: string -> string)

  /** The loader of the program: `inherit_to_source` and `os.path.dirname`. */
  function Standard(docs: map<string, Tree>): Loader {
    Loader(docs, InheritToSource, PosixPath.DirName)
  }

  /** The `-s` substitutions, or None when none were given. */
  type Subs = Option<Substitute.Pairs>

  /** No dict at any depth holds a `$$inherit` or a `$$schema` key. */
  predicate Resolved(t: Tree)
    decreases t
  {
    match t
    case Obj(m) => "$$inherit" !in m && "$$schema" !in m && forall k | k in m :: Resolved(m[k])
    case List(items) => forall i | 0 <= i < |items| :: Resolved(items[i])
    case _ => true
  }

  /** No dict at any depth holds a null value; lists may. */
  predicate NullFree(t: Tree)
    decreases t
  {
    match t
    case Obj(m) => forall k | k in m :: !m[k].Null? && NullFree(m[k])
    case List(items) => forall i | 0 <= i < |items| :: NullFree(items[i])
    case _ => true
  }

  /** The dict's `$$inherit` is a string, so a document is loaded. */
  predicate Follows(m: map<string, Tree>) {
    "$$inherit" in m && m["$$inherit"].Str?
  }

  /** `handle_inherit(ref, "insert", bases, subs, args)`: the reference is
      turned into a source, the source is loaded, and the substitutions are
      applied to it (which needs a dict). */
  function HandleInherit(ref: string, bases: Bases, subs: Subs, loader: Loader): (r: Result<Tree>)
    ensures r.Ok? ==> loader.locate(ref, bases).Ok? && loader.locate(ref, bases).value in loader.docs
    ensures loader.locate(ref, bases).Err? ==> r == loader.locate(ref, bases).PropagateFailure()
    ensures r.Ok? && subs.None? ==> r.value == loader.docs[loader.locate(ref, bases).value]
    ensures r.Ok? && subs.Some? ==>
      var data := loader.docs[loader.locate(ref, bases).value];
      data.Obj? && r.value == Obj(Substitute.RecursiveReplace(data.fields, subs.value))
  {
    var source :- loader.locate(ref, bases);
    if source !in loader.docs then Err(LoadFailed(source))
    else
      var data := loader.docs[source];
      match subs
      case None => Ok(data)
      case Some(pairs) =>
        if data.Obj? then Ok(Obj(Substitute.RecursiveReplace(data.fields, pairs)))
        else Err(TypeMismatch)
  }

  /** `'$$schema': v` becomes `'$schema': v + "." + output_format`. */
  function RewriteSchema(m: map<string, Tree>, format: string): (r: Result<map<string, Tree>>)
    ensures "$$schema" !in m ==> r == Ok(m)
    ensures r.Ok? <==> ("$$schema" !in m || m["$$schema"].Str?)
    ensures r.Ok? ==> "$$schema" !in r.value
    ensures r.Ok? && "$$schema" in m ==> "$schema" in r.value && r.value["$schema"] == Str(m["$$schema"].s + "." + format)
    ensures r.Ok? ==> forall k | k in m && k != "$$schema" :: k in r.value
    ensures r.Ok? ==> forall k | k in r.value :: (k in m && r.value[k] == m[k]) || (k == "$schema" && r.value[k].Str?)
  {
    if "$$schema" !in m then Ok(m)
    else
      match m["$$schema"]
      case Str(s) => Ok((m - {"$$schema"})["$schema" := Str(s + "." + format)])
      case _ => Err(TypeMismatch)
  }

  function HandleAll(data: Tree, bases: Bases, subs: Subs, cfg: Config, loader: Loader, level: nat, fuel: nat): (r: Result<Tree>)
    ensures !IsContainer(data) ==> r == Err(NotContainer)
    ensures r.Ok? && data.List? ==> r.value.List? && |r.value.items| == |data.items|
    ensures r.Ok? && data.Obj? ==> r.value.Obj?
    ensures r.Ok? ==> Resolved(r.value)
    ensures r.Ok? && cfg.removeNull ==> NullFree(r.value)
    decreases fuel, data, 3
  {
    match data
    case List(items) =>
      var out :- HandleItems(items, 0, bases, subs, cfg, loader, fuel);
      Ok(List(out))
    case Obj(m) =>
      var out :- HandleObject(m, bases, subs, cfg, loader, level, fuel);
      Ok(Obj(out))
    case _ => Err(NotContainer)
  }

  /** The list branch, from index `i` on: dict and list elements are resolved
      in order, the first failure is the result, other elements stay. */
  function HandleItems(items: seq<Tree>, i: nat, bases: Bases, subs: Subs, cfg: Config, loader: Loader, fuel: nat): (r: Result<seq<Tree>>)
    requires i <= |items|
    ensures r.Ok? ==> |r.value| == |items| - i
    ensures r.Ok? ==> forall j | 0 <= j < |r.value| :: Resolved(r.value[j])
    ensures r.Ok? && cfg.removeNull ==> forall j | 0 <= j < |r.value| :: NullFree(r.value[j])
    ensures r.Ok? ==> forall j | 0 <= j < |r.value| && !IsContainer(items[i + j]) :: r.value[j] == items[i + j]
    ensures r.Ok? ==> forall j | 0 <= j < |r.value| && items[i + j].Obj? :: r.value[j].Obj?
    decreases fuel, List(items), 1, |items| - i
  {
    if i == |items| then Ok([])
    else
      var head :- if IsContainer(items[i]) then HandleAll(items[i], bases, subs, cfg, loader, 0, fuel) else Ok(items[i]);
      var tail :- HandleItems(items, i + 1, bases, subs, cfg, loader, fuel);
      Ok([head] + tail)
  }

  /** The dict branch. The children of a dict that followed an `$$inherit`
      are resolved with one unit of fuel less: they include the merged-in
      values of the loaded document, which are resolved a second time. */
  function HandleObject(m: map<string, Tree>, bases: Bases, subs: Subs, cfg: Config, loader: Loader, level: nat, fuel: nat): (r: Result<map<string, Tree>>)
    ensures r.Ok? ==> Resolved(Obj(r.value))
    ensures r.Ok? && cfg.removeNull ==> NullFree(Obj(r.value))
    ensures "$$schema" in m && !m["$$schema"].Str? ==> r.Err?
    ensures r.Ok? && "$$schema" in m && (level == 0 || !cfg.cleanInnerSchemas) ==>
      "$schema" in r.value && r.value["$schema"] == Str(m["$$schema"].s + "." + cfg.outputFormat)
    ensures r.Ok? && level > 0 && cfg.cleanInnerSchemas ==> "$schema" !in r.value
    ensures r.Ok? ==> forall k | k in m && k !in Directive && !IsContainer(m[k]) ::
      if cfg.removeNull && m[k].Null? then k !in r.value else k in r.value && r.value[k] == m[k]
    ensures r.Ok? ==> forall k | k in m && k !in Directive && IsContainer(m[k]) :: k in r.value
    decreases fuel, Obj(m), 2
  {
    var cleaned :- Prepare(m, bases, subs, cfg, loader, level, fuel);
    if Follows(m) then HandleEntries(cleaned, cleaned, bases, subs, cfg, loader, fuel - 1)
    else HandleEntries(cleaned, m, bases, subs, cfg, loader, fuel)
  }

  /** The keys whose value the dict branch may replace or drop before its
      children are visited. */
  const Directive: set<string> := {"$$inherit", "$$schema", "$schema"}

  /** What the dict branch does before it visits the children: `$$inherit`,
      then `$$schema`, then the inner `$schema` cleanup. Without an inherit
      that loads, every dict or list value left is one of `m`'s. */
  function Prepare(m: map<string, Tree>, bases: Bases, subs: Subs, cfg: Config, loader: Loader, level: nat, fuel: nat): (r: Result<map<string, Tree>>)
    ensures r.Ok? ==> "$$inherit" !in r.value && "$$schema" !in r.value
    ensures "$$schema" in m && !m["$$schema"].Str? ==> r.Err?
    ensures r.Ok? && "$$schema" in m && (level == 0 || !cfg.cleanInnerSchemas) ==>
      "$schema" in r.value && r.value["$schema"] == Str(m["$$schema"].s + "." + cfg.outputFormat)
    ensures r.Ok? && level > 0 && cfg.cleanInnerSchemas ==> "$schema" !in r.value
    ensures r.Ok? ==> forall k | k in m && k !in Directive :: k in r.value
    ensures r.Ok? ==> forall k | k in m && k !in Directive && !m[k].Obj? :: r.value[k] == m[k]
    ensures r.Ok? ==> forall k | k in m && k !in Directive && m[k].Obj? :: r.value[k].Obj?
    ensures r.Ok? && Follows(m) ==> fuel > 0
    ensures r.Ok? && !Follows(m) ==> forall k | k in r.value && IsContainer(r.value[k]) :: k in m && m[k] == r.value[k]
    decreases fuel, Obj(m), 1
  {
    var merged :- if "$$inherit" in m then ResolveInherit(m, bases, subs, cfg, loader, fuel) else Ok(m);
    var renamed :- RewriteSchema(merged, cfg.outputFormat);
    if "$schema" in renamed && level > 0 && cfg.cleanInnerSchemas then Ok(renamed - {"$schema"}) else Ok(renamed)
  }

  /** The `$$inherit` step. A list value is looped over, but every pass
      rebinds the loop variable to the whole list, which cannot be parsed as
      a reference: only the empty list gets through. A string is loaded,
      resolved on its own, filtered by `$$keep` and `$$exclude`, and merged
      without replacing. */
  function ResolveInherit(m: map<string, Tree>, bases: Bases, subs: Subs, cfg: Config, loader: Loader, fuel: nat): (r: Result<map<string, Tree>>)
    requires "$$inherit" in m
    ensures m["$$inherit"].List? ==> (r.Ok? <==> m["$$inherit"].items == [])
    ensures !m["$$inherit"].List? && !m["$$inherit"].Str? ==> r == Err(InheritNotString)
    ensures r.Ok? && !Follows(m) ==> r.value == m - {"$$inherit"}
    ensures r.Ok? && Follows(m) ==> fuel > 0
    ensures r.Ok? ==> "$$inherit" !in r.value
    ensures r.Ok? ==> forall k | k in m && k != "$$inherit" :: k in r.value
    ensures r.Ok? ==> forall k | k in m && k != "$$inherit" && !m[k].Obj? :: r.value[k] == m[k]
    ensures r.Ok? ==> forall k | k in m && k != "$$inherit" && m[k].Obj? :: r.value[k].Obj?
    decreases fuel, Obj(m), 0
  {
    match m["$$inherit"]
    case List(items) =>
      if |items| == 0 then Ok(m - {"$$inherit"}) else Err(InheritNotString)
    case Str(ref) =>
      var loaded :- HandleInherit(ref, bases, subs, loader);
      if !loaded.Obj? then Err(TypeMismatch)
      else if fuel == 0 then Err(OutOfFuel)
      else
        var doc :- ResolveDocument(loaded.fields, loader.locate(ref, bases).value, bases, subs, cfg, loader, fuel - 1);
        Ok(Merge.MergeDeep(m, doc, false) - {"$$inherit"})
    case _ => Err(InheritNotString)
  }

  /** A loaded dict is resolved with `self` set to the directory of its own
      source, then `$$keep` and `$$exclude` are applied to it. */
  function ResolveDocument(loaded: map<string, Tree>, source: string, bases: Bases, subs: Subs, cfg: Config, loader: Loader, fuel: nat): (r: Result<map<string, Tree>>)
    ensures r.Ok? ==> "$$inherit" !in r.value && "$$schema" !in r.value
    ensures r.Ok? ==> forall k | k in r.value :: Resolved(r.value[k])
    decreases fuel, Obj(loaded), 4
  {
    var done :- HandleAll(Obj(loaded), bases.(self := Some(loader.dirName(source))), subs, cfg, loader, 0, fuel);
    var kept :- Directives.ApplyKeep(done.fields);
    Directives.ApplyExclude(kept)
  }

  /** The loop over a dict's values: dict and list values are resolved, and
      with `remove_null` the keys whose value was null are dropped. Any
      failure fails the dict. `bound` is a dict that holds every container
      value of `cur` under the same key; it bounds the recursion. */
  function HandleEntries(cur: map<string, Tree>, bound: map<string, Tree>, bases: Bases, subs: Subs, cfg: Config, loader: Loader, fuel: nat): (r: Result<map<string, Tree>>)
    requires forall k | k in cur && IsContainer(cur[k]) :: k in bound && bound[k] == cur[k]
    ensures r.Ok? ==> r.value.Keys == set k | k in cur && !(cfg.removeNull && cur[k].Null?)
    ensures r.Ok? ==> forall k | k in r.value :: Resolved(r.value[k])
    ensures r.Ok? && cfg.removeNull ==> forall k | k in r.value :: !r.value[k].Null? && NullFree(r.value[k])
    ensures r.Ok? ==> forall k | k in r.value && !IsContainer(cur[k]) :: r.value[k] == cur[k]
    ensures r.Ok? ==> forall k | k in r.value && cur[k].Obj? :: r.value[k].Obj?
    ensures r.Ok? ==> forall k | k in r.value && cur[k].List? :: r.value[k].List?
    decreases fuel, Obj(bound), 0
  {
    var results := map k | k in cur ::
      if IsContainer(cur[k]) then HandleAll(cur[k], bases, subs, cfg, loader, 0, fuel) else Ok(cur[k]);
    if exists k | k in results :: results[k].Err? then Err(Nested)
    else Ok(map k | k in results && !(cfg.removeNull && cur[k].Null?) :: results[k].value)
  }
}

=== FILE: engine_facts.dfy ===
/** Properties of `handle_all` that relate several calls: resolved trees are
    left alone (so resolving twice is resolving once), the inner-`$schema`
    cleanup never fires because the recursion always runs at level 0, and
    the behaviour of list-valued `$$inherit`. */
module EngineFacts {
  import opened Trees
  import opened Reference
  import opened Engine
  import PosixPath
  import Merge
  import Directives

  /** A resolved tree, free of nulls in dicts when nulls are being removed,
      comes out of `handle_all` unchanged; `bases`, the substitutions, the
      loader and the fuel play no part. */
  lemma {:induction false} ResolvedIsFixpoint(t: Tree, bases: Bases, subs: Subs, cfg: Config, loader: Loader, fuel: nat)
    requires IsContainer(t) && Resolved(t)
    requires cfg.removeNull ==> NullFree(t)
    ensures HandleAll(t, bases, subs, cfg, loader, 0, fuel) == Ok(t)
    decreases t, 1
  {
    match t
    case List(items) =>
      ItemsFixpoint(items, 0, bases, subs, cfg, loader, fuel);
      assert items[0..] == items;
    case Obj(m) =>
      ObjectFixpoint(m, bases, subs, cfg, loader, fuel);
  }

  lemma {:induction false} ItemsFixpoint(items: seq<Tree>, i: nat, bases: Bases, subs: Subs, cfg: Config, loader: Loader, fuel: nat)
    requires i <= |items|
    requires forall j | 0 <= j < |items| :: Resolved(items[j])
    requires cfg.removeNull ==> forall j | 0 <= j < |items| :: NullFree(items[j])
    ensures HandleItems(items, i, bases, subs, cfg, loader, fuel) == Ok(items[i..])
    decreases List(items), 0, |items| - i
  {
    if i < |items| {
      var head := if IsContainer(items[i]) then HandleAll(items[i], bases, subs, cfg, loader, 0, fuel) else Ok(items[i]);
      assert head == Ok(items[i]) by {
        if IsContainer(items[i]) {
          ResolvedIsFixpoint(items[i], bases, subs, cfg, loader, fuel);
        }
      }
      ItemsFixpoint(items, i + 1, bases, subs, cfg, loader, fuel);
      ItemsStep(items, i, bases, subs, cfg, loader, fuel);
    } else {
      assert items[i..] == [];
    }
  }

  /** One step of the list loop: an element that comes out as it is, before
      a tail that does, gives the list from that element on. */
  lemma ItemsStep(items: seq<Tree>, i: nat, bases: Bases, subs: Subs, cfg: Config, loader: Loader, fuel: nat)
    requires i < |items|
    requires (if IsContainer(items[i]) then HandleAll(items[i], bases, subs, cfg, loader, 0, fuel) else Ok(items[i])) == Ok(items[i])
    requires HandleItems(items, i + 1, bases, subs, cfg, loader, fuel) == Ok(items[i + 1..])
    ensures HandleItems(items, i, bases, subs, cfg, loader, fuel) == Ok(items[i..])
  {
    var head := if IsContainer(items[i]) then HandleAll(items[i], bases, subs, cfg, loader, 0, fuel) else Ok(items[i]);
    var tail := HandleItems(items, i + 1, bases, subs, cfg, loader, fuel);
    assert head.Ok? && head.value == items[i];
    assert tail.Ok? && tail.value == items[i + 1..];
    assert HandleItems(items, i, bases, subs, cfg, loader, fuel) == Ok([head.value] + tail.value);
    assert items[i..] == [items[i]] + items[i + 1..];
  }

  lemma {:induction false} ObjectFixpoint(m: map<string, Tree>, bases: Bases, subs: Subs, cfg: Config, loader: Loader, fuel: nat)
    requires Resolved(Obj(m))
    requires cfg.removeNull ==> NullFree(Obj(m))
    ensures HandleObject(m, bases, subs, cfg, loader, 0, fuel) == Ok(m)
    decreases Obj(m), 0
  {
    assert Prepare(m, bases, subs, cfg, loader, 0, fuel) == Ok(m);
    forall k | k in m && IsContainer(m[k])
      ensures HandleAll(m[k], bases, subs, cfg, loader, 0, fuel) == Ok(m[k])
    {
      ResolvedIsFixpoint(m[k], bases, subs, cfg, loader, fuel);
    }
    var r := HandleEntries(m, m, bases, subs, cfg, loader, fuel);
    assert r.Ok?;
    assert r.value == m;
  }

  /** Resolving a resolved result again changes nothing, whatever the
      second call's `bases`, substitutions, loader and fuel. */
  lemma Idempotent(t: Tree, bases: Bases, subs: Subs, cfg: Config, loader: Loader, level: nat, fuel: nat,
                   bases2: Bases, subs2: Subs, loader2: Loader, fuel2: nat)
    requires HandleAll(t, bases, subs, cfg, loader, level, fuel).Ok?
    ensures var r := HandleAll(t, bases, subs, cfg, loader, level, fuel);
      HandleAll(r.value, bases2, subs2, cfg, loader2, 0, fuel2) == r
  {
    var r := HandleAll(t, bases, subs, cfg, loader, level, fuel);
    ResolvedIsFixpoint(r.value, bases2, subs2, cfg, loader2, fuel2);
  }

  /** Two configurations that differ at most in `clean_inner_schemas`. */
  predicate SameButClean(cfg: Config, cfg2: Config) {
    cfg.outputFormat == cfg2.outputFormat && cfg.removeNull == cfg2.removeNull
  }

  /** Every recursive call runs at level 0, so `clean_inner_schemas` never
      changes the result of a call at level 0. */
  lemma {:induction false} CleanInnerSchemasInert(data: Tree, bases: Bases, subs: Subs, cfg: Config, loader: Loader, fuel: nat, cfg2: Config)
    requires SameButClean(cfg, cfg2)
    ensures HandleAll(data, bases, subs, cfg, loader, 0, fuel)
         == HandleAll(data, bases, subs, cfg2, loader, 0, fuel)
    decreases fuel, data, 3
  {
    match data
    case List(items) => ItemsInert(items, 0, bases, subs, cfg, loader, fuel, cfg2);
    case Obj(m) => ObjectInert(m, bases, subs, cfg, loader, fuel, cfg2);
    case _ =>
  }

  lemma {:induction false} ItemsInert(items: seq<Tree>, i: nat, bases: Bases, subs: Subs, cfg: Config, loader: Loader, fuel: nat, cfg2: Config)
    requires SameButClean(cfg, cfg2)
    requires i <= |items|
    ensures HandleItems(items, i, bases, subs, cfg, loader, fuel)
         == HandleItems(items, i, bases, subs, cfg2, loader, fuel)
    decreases fuel, List(items), 1, |items| - i
  {
    if i < |items| {
      if IsContainer(items[i]) {
        CleanInnerSchemasInert(items[i], bases, subs, cfg, loader, fuel, cfg2);
      }
      ItemsInert(items, i + 1, bases, subs, cfg, loader, fuel, cfg2);
    }
  }

  lemma {:induction false} ObjectInert(m: map<string, Tree>, bases: Bases, subs: Subs, cfg: Config, loader: Loader, fuel: nat, cfg2: Config)
    requires SameButClean(cfg, cfg2)
    ensures HandleObject(m, bases, subs, cfg, loader, 0, fuel)
         == HandleObject(m, bases, subs, cfg2, loader, 0, fuel)
    decreases fuel, Obj(m), 2
  {
    PrepareInert(m, bases, subs, cfg, loader, fuel, cfg2);
    var p := Prepare(m, bases, subs, cfg, loader, 0, fuel);
    assert p == Prepare(m, bases, subs, cfg2, loader, 0, fuel);
    if p.Ok? {
      var bound := if Follows(m) then p.value else m;
      var f := if Follows(m) then fuel - 1 else fuel;
      EntriesInert(p.value, bound, bases, subs, cfg, loader, f, cfg2);
      assert HandleObject(m, bases, subs, cfg, loader, 0, fuel) == HandleEntries(p.value, bound, bases, subs, cfg, loader, f);
      assert HandleObject(m, bases, subs, cfg2, loader, 0, fuel) == HandleEntries(p.value, bound, bases, subs, cfg2, loader, f);
    }
  }

  lemma {:induction false} PrepareInert(m: map<string, Tree>, bases: Bases, subs: Subs, cfg: Config, loader: Loader, fuel: nat, cfg2: Config)
    requires SameButClean(cfg, cfg2)
    ensures Prepare(m, bases, subs, cfg, loader, 0, fuel)
         == Prepare(m, bases, subs, cfg2, loader, 0, fuel)
    decreases fuel, Obj(m), 1
  {
    if "$$inherit" in m {
      InheritInert(m, bases, subs, cfg, loader, fuel, cfg2);
    }
  }

  lemma {:induction false} InheritInert(m: map<string, Tree>, bases: Bases, subs: Subs, cfg: Config, loader: Loader, fuel: nat, cfg2: Config)
    requires SameButClean(cfg, cfg2)
    requires "$$inherit" in m
    ensures ResolveInherit(m, bases, subs, cfg, loader, fuel)
         == ResolveInherit(m, bases, subs, cfg2, loader, fuel)
    decreases fuel, Obj(m), 0, 1
  {
    match m["$$inherit"]
    case Str(ref) =>
      var loaded := HandleInherit(ref, bases, subs, loader);
      if loaded.Ok? && loaded.value.Obj? && fuel > 0 {
        LoadedInert(m, ref, bases, subs, cfg, loader, fuel, cfg2, loaded.value.fields);
      }
    case _ =>
  }

  /** The string branch of `InheritInert`, once the document is loaded. */
  lemma {:induction false} LoadedInert(m: map<string, Tree>, ref: string, bases: Bases, subs: Subs, cfg: Config, loader: Loader, fuel: nat, cfg2: Config,
                                       loaded: map<string, Tree>)
    requires SameButClean(cfg, cfg2)
    requires "$$inherit" in m && m["$$inherit"] == Str(ref) && fuel > 0
    requires HandleInherit(ref, bases, subs, loader) == Ok(Obj(loaded))
    ensures ResolveInherit(m, bases, subs, cfg, loader, fuel)
         == ResolveInherit(m, bases, subs, cfg2, loader, fuel)
    decreases fuel, Obj(m), 0, 0
  {
    DocumentInert(loaded, loader.locate(ref, bases).value, bases, subs, cfg, loader, fuel - 1, cfg2);
    InheritLoaded(m, ref, bases, subs, cfg, loader, fuel, loaded);
    InheritLoaded(m, ref, bases, subs, cfg2, loader, fuel, loaded);
  }

  /** The string branch of the `$$inherit` step once the document is
      loaded: the dict is merged with the resolved document, and
      `$$inherit` dropped. */
  lemma InheritLoaded(m: map<string, Tree>, ref: string, bases: Bases, subs: Subs, cfg: Config, loader: Loader, fuel: nat,
                      loaded: map<string, Tree>)
    requires "$$inherit" in m && m["$$inherit"] == Str(ref) && fuel > 0
    requires HandleInherit(ref, bases, subs, loader) == Ok(Obj(loaded))
    ensures var doc := ResolveDocument(loaded, loader.locate(ref, bases).value, bases, subs, cfg, loader, fuel - 1);
      ResolveInherit(m, bases, subs, cfg, loader, fuel)
        == if doc.Ok? then Ok(Merge.MergeDeep(m, doc.value, false) - {"$$inherit"}) else Err(doc.error)
  {
  }

  /** The `$$exclude` step removes nothing, so a loaded document's
      `$$exclude` key (the one `$$keep` needs next to it) survives the
      filters, provided the keep list names it, and is merged into an
      inheriting dict that has none of its own. */
  lemma ExcludeKeyIsMerged(m: map<string, Tree>, ref: string, bases: Bases, subs: Subs, cfg: Config, loader: Loader, fuel: nat,
                           loaded: map<string, Tree>, done: map<string, Tree>)
    requires "$$inherit" in m && m["$$inherit"] == Str(ref) && "$$exclude" !in m && fuel > 0
    requires HandleInherit(ref, bases, subs, loader) == Ok(Obj(loaded))
    requires HandleAll(Obj(loaded), bases.(self := Some(loader.dirName(loader.locate(ref, bases).value))), subs, cfg, loader, 0, fuel - 1)
          == Ok(Obj(done))
    requires "$$exclude" in done && Directives.IsEmptyIterable(done["$$exclude"])
    requires "$$keep" in done ==> PyIn("$$keep", done["$$keep"]) == Ok(true) && PyIn("$$exclude", done["$$keep"]) == Ok(true)
    ensures ResolveInherit(m, bases, subs, cfg, loader, fuel).Ok?
    ensures "$$exclude" in ResolveInherit(m, bases, subs, cfg, loader, fuel).value
    ensures ResolveInherit(m, bases, subs, cfg, loader, fuel).value["$$exclude"] == done["$$exclude"]
  {
    InheritLoaded(m, ref, bases, subs, cfg, loader, fuel, loaded);
    var kept := Directives.ApplyKeep(done);
    assert kept.Ok? && "$$exclude" in kept.value && kept.value["$$exclude"] == done["$$exclude"];
  }

  lemma {:induction false} DocumentInert(loaded: map<string, Tree>, source: string, bases: Bases, subs: Subs, cfg: Config, loader: Loader, fuel: nat, cfg2: Config)
    requires SameButClean(cfg, cfg2)
    ensures ResolveDocument(loaded, source, bases, subs, cfg, loader, fuel)
         == ResolveDocument(loaded, source, bases, subs, cfg2, loader, fuel)
    decreases fuel, Obj(loaded), 4
  {
    CleanInnerSchemasInert(Obj(loaded), bases.(self := Some(loader.dirName(source))), subs, cfg, loader, fuel, cfg2);
  }

  lemma {:induction false} EntriesInert(cur: map<string, Tree>, bound: map<string, Tree>, bases: Bases, subs: Subs, cfg: Config, loader: Loader, fuel: nat, cfg2: Config)
    requires SameButClean(cfg, cfg2)
    requires forall k | k in cur && IsContainer(cur[k]) :: k in bound && bound[k] == cur[k]
    ensures HandleEntries(cur, bound, bases, subs, cfg, loader, fuel)
         == HandleEntries(cur, bound, bases, subs, cfg2, loader, fuel)
    decreases fuel, Obj(bound), 0
  {
    var r1 := map k | k in cur ::
      if IsContainer(cur[k]) then HandleAll(cur[k], bases, subs, cfg, loader, 0, fuel) else Ok(cur[k]);
    var r2 := map k | k in cur ::
      if IsContainer(cur[k]) then HandleAll(cur[k], bases, subs, cfg2, loader, 0, fuel) else Ok(cur[k]);
    forall k | k in cur
      ensures r1[k] == r2[k]
    {
      if IsContainer(cur[k]) {
        CleanInnerSchemasInert(cur[k], bases, subs, cfg, loader, fuel, cfg2);
      }
    }
    assert r1 == r2;
  }

  /** A non-empty list under `$$inherit` always fails: the loop variable is
      rebound to the whole list, which is not a reference. */
  lemma ListInheritFails(m: map<string, Tree>, items: seq<Tree>, bases: Bases, subs: Subs, cfg: Config, loader: Loader, level: nat, fuel: nat)
    requires "$$inherit" in m && m["$$inherit"] == List(items) && |items| > 0
    ensures HandleAll(Obj(m), bases, subs, cfg, loader, level, fuel).Err?
  {
    assert ResolveInherit(m, bases, subs, cfg, loader, fuel).Err?;
    assert Prepare(m, bases, subs, cfg, loader, level, fuel).Err?;
    assert HandleObject(m, bases, subs, cfg, loader, level, fuel).Err?;
  }

  /** A `$$inherit` reference that cannot be mapped to a source fails the
      dict with the mapping's error. */
  lemma UnlocatableInheritFails(m: map<string, Tree>, ref: string, bases: Bases, subs: Subs, cfg: Config, loader: Loader, level: nat, fuel: nat)
    requires "$$inherit" in m && m["$$inherit"] == Str(ref)
    requires loader.locate(ref, bases).Err?
    ensures HandleAll(Obj(m), bases, subs, cfg, loader, level, fuel) == Err(loader.locate(ref, bases).error)
  {
    var e := loader.locate(ref, bases).error;
    assert HandleInherit(ref, bases, subs, loader) == Err(e);
    assert ResolveInherit(m, bases, subs, cfg, loader, fuel) == Err(e);
    assert Prepare(m, bases, subs, cfg, loader, level, fuel) == Err(e);
    assert HandleObject(m, bases, subs, cfg, loader, level, fuel) == Err(e);
  }

  /** An empty list under `$$inherit` is deleted and nothing else happens. */
  lemma EmptyInheritListIsDropped(m: map<string, Tree>, bases: Bases, subs: Subs, cfg: Config, loader: Loader, level: nat, fuel: nat)
    requires "$$inherit" in m && m["$$inherit"] == List([])
    ensures HandleAll(Obj(m), bases, subs, cfg, loader, level, fuel)
         == HandleAll(Obj(m - {"$$inherit"}), bases, subs, cfg, loader, level, fuel)
  {
    var n := m - {"$$inherit"};
    assert Prepare(m, bases, subs, cfg, loader, level, fuel) == Prepare(n, bases, subs, cfg, loader, level, fuel);
    var p := Prepare(n, bases, subs, cfg, loader, level, fuel);
    if p.Ok? {
      assert HandleEntries(p.value, m, bases, subs, cfg, loader, fuel) == HandleEntries(p.value, n, bases, subs, cfg, loader, fuel);
    }
  }

  /** A value `handle_all` passes over unchanged: not a dict or list, and
      not null when nulls are removed. */
  predicate Plain(t: Tree, cfg: Config) {
    !IsContainer(t) && !(cfg.removeNull && t.Null?)
  }

  /** Inheritance precedence on flat dicts: inheriting a document of plain
      values into a dict of plain values gives every key of either, the
      inheritor's value winning where both have one. */
  lemma InheritFlatDocument(m: map<string, Tree>, ref: string, d: map<string, Tree>,
                            bases: Bases, cfg: Config, loader: Loader, fuel: nat)
    requires "$$inherit" in m && m["$$inherit"] == Str(ref) && "$$schema" !in m
    requires forall k | k in m && k != "$$inherit" :: Plain(m[k], cfg)
    requires loader.locate(ref, bases).Ok? && loader.locate(ref, bases).value in loader.docs
    requires loader.docs[loader.locate(ref, bases).value] == Obj(d)
    requires "$$inherit" !in d && "$$schema" !in d && "$$keep" !in d && "$$exclude" !in d
    requires forall k | k in d :: Plain(d[k], cfg)
    requires fuel > 0
    ensures HandleAll(Obj(m), bases, None, cfg, loader, 0, fuel)
         == Ok(Obj(map k | k in (m.Keys + d.Keys) - {"$$inherit"} :: if k in m then m[k] else d[k]))
  {
    var merged := Merge.MergeDeep(m, d, false) - {"$$inherit"};
    FlatResolveInherit(m, ref, d, bases, cfg, loader, fuel);
    assert "$$schema" !in merged;
    PrepareAfterInherit(m, bases, None, cfg, loader, fuel, merged);
    var expected := map k | k in (m.Keys + d.Keys) - {"$$inherit"} :: if k in m then m[k] else d[k];
    assert merged == expected;
    assert forall k | k in merged :: Plain(merged[k], cfg);
    PlainFollowedObject(m, bases, None, cfg, loader, fuel, merged);
  }

  /** A followed dict whose first stage leaves only plain values comes out
      as that first stage left it. */
  lemma PlainFollowedObject(m: map<string, Tree>, bases: Bases, subs: Subs, cfg: Config, loader: Loader, fuel: nat, prepared: map<string, Tree>)
    requires Follows(m) && fuel > 0
    requires Prepare(m, bases, subs, cfg, loader, 0, fuel) == Ok(prepared)
    requires forall k | k in prepared :: Plain(prepared[k], cfg)
    ensures HandleAll(Obj(m), bases, subs, cfg, loader, 0, fuel) == Ok(Obj(prepared))
  {
    EntriesOfPlainValuesLessFuel(bases, subs, cfg, loader, fuel, prepared);
    FollowedEntries(m, bases, subs, cfg, loader, fuel, prepared, prepared);
  }

  /** `EntriesOfPlainValues` with the fuel of the children of a followed
      dict. */
  lemma EntriesOfPlainValuesLessFuel(bases: Bases, subs: Subs, cfg: Config, loader: Loader, fuel: nat, prepared: map<string, Tree>)
    requires fuel > 0
    requires forall k | k in prepared :: Plain(prepared[k], cfg)
    ensures HandleEntries(prepared, prepared, bases, subs, cfg, loader, fuel - 1) == Ok(prepared)
  {
    EntriesOfPlainValues(prepared, bases, subs, cfg, loader, fuel - 1);
  }

  /** A followed dict's children are resolved from its first stage, with
      one unit of fuel less. */
  lemma FollowedEntries(m: map<string, Tree>, bases: Bases, subs: Subs, cfg: Config, loader: Loader, fuel: nat, prepared: map<string, Tree>, out: map<string, Tree>)
    requires Follows(m) && fuel > 0
    requires Prepare(m, bases, subs, cfg, loader, 0, fuel) == Ok(prepared)
    requires HandleEntries(prepared, prepared, bases, subs, cfg, loader, fuel - 1) == Ok(out)
    ensures HandleAll(Obj(m), bases, subs, cfg, loader, 0, fuel) == Ok(Obj(out))
  {
  }

  /** Without a `$$schema`, and at level 0, the dict branch's first stage is
      the `$$inherit` step alone. */
  lemma PrepareAfterInherit(m: map<string, Tree>, bases: Bases, subs: Subs, cfg: Config, loader: Loader, fuel: nat, merged: map<string, Tree>)
    requires "$$inherit" in m && ResolveInherit(m, bases, subs, cfg, loader, fuel) == Ok(merged)
    requires "$$schema" !in merged
    ensures Prepare(m, bases, subs, cfg, loader, 0, fuel) == Ok(merged)
  {
  }

  lemma FlatResolveInherit(m: map<string, Tree>, ref: string, d: map<string, Tree>,
                           bases: Bases, cfg: Config, loader: Loader, fuel: nat)
    requires "$$inherit" in m && m["$$inherit"] == Str(ref)
    requires loader.locate(ref, bases).Ok? && loader.locate(ref, bases).value in loader.docs
    requires loader.docs[loader.locate(ref, bases).value] == Obj(d)
    requires "$$inherit" !in d && "$$schema" !in d && "$$keep" !in d && "$$exclude" !in d
    requires forall k | k in d :: Plain(d[k], cfg)
    requires fuel > 0
    ensures ResolveInherit(m, bases, None, cfg, loader, fuel) == Ok(Merge.MergeDeep(m, d, false) - {"$$inherit"})
  {
    var source := loader.locate(ref, bases).value;
    assert HandleInherit(ref, bases, None, loader) == Ok(Obj(d));
    InheritLoaded(m, ref, bases, None, cfg, loader, fuel, d);
    FlatDocumentResolves(d, source, bases, cfg, loader, fuel - 1);
  }

  /** A loaded dict of plain values without directives resolves to itself. */
  lemma FlatDocumentResolves(d: map<string, Tree>, source: string, bases: Bases, cfg: Config, loader: Loader, fuel: nat)
    requires "$$inherit" !in d && "$$schema" !in d && "$$keep" !in d && "$$exclude" !in d
    requires forall k | k in d :: Plain(d[k], cfg)
    ensures ResolveDocument(d, source, bases, None, cfg, loader, fuel) == Ok(d)
  {
    var inner := bases.(self := Some(loader.dirName(source)));
    assert Resolved(Obj(d)) && (cfg.removeNull ==> NullFree(Obj(d))) by {
      forall k | k in d
        ensures Resolved(d[k]) && NullFree(d[k])
      {
        assert !IsContainer(d[k]);
      }
    }
    ResolvedIsFixpoint(Obj(d), inner, None, cfg, loader, fuel);
    assert Directives.ApplyKeep(d) == Ok(d);
    assert Directives.ApplyExclude(d) == Ok(d);
  }

  /** A dict of plain values is its own resolution. */
  lemma EntriesOfPlainValues(cur: map<string, Tree>, bases: Bases, subs: Subs, cfg: Config, loader: Loader, fuel: nat)
    requires forall k | k in cur :: Plain(cur[k], cfg)
    ensures HandleEntries(cur, cur, bases, subs, cfg, loader, fuel) == Ok(cur)
  {
    var results := map k | k in cur ::
      if IsContainer(cur[k]) then HandleAll(cur[k], bases, subs, cfg, loader, 0, fuel) else Ok(cur[k]);
    assert forall k | k in results :: results[k] == Ok(cur[k]);
    var out := map k | k in results && !(cfg.removeNull && cur[k].Null?) :: results[k].value;
    assert out == cur;
  }

  /** With `remove_null`, a null value of a dict is dropped while a null in a
      list stays. */
  lemma RemoveNullExample(bases: Bases, subs: Subs, cfg: Config, loader: Loader, fuel: nat)
    requires cfg.removeNull
    ensures HandleAll(Obj(map["a" := Null, "b" := List([Null])]), bases, subs, cfg, loader, 0, fuel)
         == Ok(Obj(map["b" := List([Null])]))
  {
    var m := map["a" := Null, "b" := List([Null])];
    assert Resolved(List([Null])) && NullFree(List([Null]));
    ResolvedIsFixpoint(List([Null]), bases, subs, cfg, loader, fuel);
    assert Prepare(m, bases, subs, cfg, loader, 0, fuel) == Ok(m);
    NullEntryDropped(m, bases, subs, cfg, loader, fuel);
  }

  /** A dict whose containers each resolve to themselves keeps its values,
      except that `remove_null` drops its null ones. */
  lemma EntriesDropNulls(cur: map<string, Tree>, bases: Bases, subs: Subs, cfg: Config, loader: Loader, fuel: nat)
    requires forall k | k in cur && IsContainer(cur[k]) :: HandleAll(cur[k], bases, subs, cfg, loader, 0, fuel) == Ok(cur[k])
    ensures HandleEntries(cur, cur, bases, subs, cfg, loader, fuel)
         == Ok(map k | k in cur && !(cfg.removeNull && cur[k].Null?) :: cur[k])
  {
    var results := map k | k in cur ::
      if IsContainer(cur[k]) then HandleAll(cur[k], bases, subs, cfg, loader, 0, fuel) else Ok(cur[k]);
    assert forall k | k in results :: results[k] == Ok(cur[k]);
    assert !exists k | k in results :: results[k].Err?;
    var out := map k | k in results && !(cfg.removeNull && cur[k].Null?) :: results[k].value;
    assert out == map k | k in cur && !(cfg.removeNull && cur[k].Null?) :: cur[k];
  }

  lemma NullEntryDropped(m: map<string, Tree>, bases: Bases, subs: Subs, cfg: Config, loader: Loader, fuel: nat)
    requires cfg.removeNull && m == map["a" := Null, "b" := List([Null])]
    requires HandleAll(List([Null]), bases, subs, cfg, loader, 0, fuel) == Ok(List([Null]))
    ensures HandleEntries(m, m, bases, subs, cfg, loader, fuel) == Ok(map["b" := List([Null])])
  {
    EntriesDropNulls(m, bases, subs, cfg, loader, fuel);
    NullsOfExampleDropped(m, cfg.removeNull);
  }

  /** Dropping the null values of `{"a": null, "b": [null]}` leaves `b`. */
  lemma NullsOfExampleDropped(m: map<string, Tree>, removeNull: bool)
    requires removeNull && m == map["a" := Null, "b" := List([Null])]
    ensures (map k | k in m && !(removeNull && m[k].Null?) :: m[k]) == map["b" := List([Null])]
  {
    var r := map k | k in m && !(removeNull && m[k].Null?) :: m[k];
    assert r.Keys == {"b"};
  }
}

=== FILE: fuel.dfy ===
/** The fuel bound on followed `$$inherit` references only truncates: a call
    that succeeds with some fuel gives the same result with any larger fuel,
    so a successful result is the one the unbounded recursion of the source
    would give. */
module FuelFacts {
  import opened Trees
  import opened Reference
  import opened Engine
  import EngineFacts

  /** More fuel never changes a successful resolution. */
  lemma {:induction false} MoreFuel(data: Tree, bases: Bases, subs: Subs, cfg: Config, loader: Loader, level: nat, fuel: nat, fuel2: nat)
    requires fuel <= fuel2
    requires HandleAll(data, bases, subs, cfg, loader, level, fuel).Ok?
    ensures HandleAll(data, bases, subs, cfg, loader, level, fuel2) == HandleAll(data, bases, subs, cfg, loader, level, fuel)
    decreases fuel, data, 3
  {
    match data
    case List(items) => ItemsMoreFuel(items, 0, bases, subs, cfg, loader, fuel, fuel2);
    case Obj(m) => ObjectMoreFuel(m, bases, subs, cfg, loader, level, fuel, fuel2);
  }

  lemma {:induction false} ItemsMoreFuel(items: seq<Tree>, i: nat, bases: Bases, subs: Subs, cfg: Config, loader: Loader, fuel: nat, fuel2: nat)
    requires fuel <= fuel2 && i <= |items|
    requires HandleItems(items, i, bases, subs, cfg, loader, fuel).Ok?
    ensures HandleItems(items, i, bases, subs, cfg, loader, fuel2) == HandleItems(items, i, bases, subs, cfg, loader, fuel)
    decreases fuel, List(items), 1, |items| - i
  {
    if i < |items| {
      if IsContainer(items[i]) {
        assert HandleAll(items[i], bases, subs, cfg, loader, 0, fuel).Ok?;
        MoreFuel(items[i], bases, subs, cfg, loader, 0, fuel, fuel2);
      }
      ItemsMoreFuel(items, i + 1, bases, subs, cfg, loader, fuel, fuel2);
    }
  }

  lemma {:induction false} ObjectMoreFuel(m: map<string, Tree>, bases: Bases, subs: Subs, cfg: Config, loader: Loader, level: nat, fuel: nat, fuel2: nat)
    requires fuel <= fuel2
    requires HandleObject(m, bases, subs, cfg, loader, level, fuel).Ok?
    ensures HandleObject(m, bases, subs, cfg, loader, level, fuel2) == HandleObject(m, bases, subs, cfg, loader, level, fuel)
    decreases fuel, Obj(m), 2
  {
    var p := Prepare(m, bases, subs, cfg, loader, level, fuel);
    assert p.Ok?;
    PrepareMoreFuel(m, bases, subs, cfg, loader, level, fuel, fuel2);
    var bound := if Follows(m) then p.value else m;
    var f := if Follows(m) then fuel - 1 else fuel;
    var f2 := if Follows(m) then fuel2 - 1 else fuel2;
    assert HandleObject(m, bases, subs, cfg, loader, level, fuel) == HandleEntries(p.value, bound, bases, subs, cfg, loader, f);
    assert HandleObject(m, bases, subs, cfg, loader, level, fuel2) == HandleEntries(p.value, bound, bases, subs, cfg, loader, f2);
    EntriesMoreFuel(p.value, bound, bases, subs, cfg, loader, f, f2);
  }

  lemma {:induction false} PrepareMoreFuel(m: map<string, Tree>, bases: Bases, subs: Subs, cfg: Config, loader: Loader, level: nat, fuel: nat, fuel2: nat)
    requires fuel <= fuel2
    requires Prepare(m, bases, subs, cfg, loader, level, fuel).Ok?
    ensures Prepare(m, bases, subs, cfg, loader, level, fuel2) == Prepare(m, bases, subs, cfg, loader, level, fuel)
    decreases fuel, Obj(m), 1
  {
    if "$$inherit" in m {
      InheritMoreFuel(m, bases, subs, cfg, loader, fuel, fuel2);
    }
  }

  lemma {:induction false} InheritMoreFuel(m: map<string, Tree>, bases: Bases, subs: Subs, cfg: Config, loader: Loader, fuel: nat, fuel2: nat)
    requires fuel <= fuel2 && "$$inherit" in m
    requires ResolveInherit(m, bases, subs, cfg, loader, fuel).Ok?
    ensures ResolveInherit(m, bases, subs, cfg, loader, fuel2) == ResolveInherit(m, bases, subs, cfg, loader, fuel)
    decreases fuel, Obj(m), 0, 1
  {
    match m["$$inherit"]
    case Str(ref) =>
      var loaded := HandleInherit(ref, bases, subs, loader);
      assert loaded.Ok? && loaded.value.Obj? && fuel > 0;
      LoadedMoreFuel(m, ref, bases, subs, cfg, loader, fuel, fuel2, loaded.value.fields);
    case _ =>
  }

  lemma {:induction false} LoadedMoreFuel(m: map<string, Tree>, ref: string, bases: Bases, subs: Subs, cfg: Config, loader: Loader, fuel: nat, fuel2: nat,
                                          loaded: map<string, Tree>)
    requires fuel <= fuel2 && "$$inherit" in m && m["$$inherit"] == Str(ref) && fuel > 0
    requires HandleInherit(ref, bases, subs, loader) == Ok(Obj(loaded))
    requires ResolveInherit(m, bases, subs, cfg, loader, fuel).Ok?
    ensures ResolveInherit(m, bases, subs, cfg, loader, fuel2) == ResolveInherit(m, bases, subs, cfg, loader, fuel)
    decreases fuel, Obj(m), 0, 0
  {
    var source := loader.locate(ref, bases).value;
    EngineFacts.InheritLoaded(m, ref, bases, subs, cfg, loader, fuel, loaded);
    EngineFacts.InheritLoaded(m, ref, bases, subs, cfg, loader, fuel2, loaded);
    DocumentMoreFuel(loaded, source, bases, subs, cfg, loader, fuel - 1, fuel2 - 1);
  }

  lemma {:induction false} DocumentMoreFuel(loaded: map<string, Tree>, source: string, bases: Bases, subs: Subs, cfg: Config, loader: Loader, fuel: nat, fuel2: nat)
    requires fuel <= fuel2
    requires ResolveDocument(loaded, source, bases, subs, cfg, loader, fuel).Ok?
    ensures ResolveDocument(loaded, source, bases, subs, cfg, loader, fuel2) == ResolveDocument(loaded, source, bases, subs, cfg, loader, fuel)
    decreases fuel, Obj(loaded), 4
  {
    MoreFuel(Obj(loaded), bases.(self := Some(loader.dirName(source))), subs, cfg, loader, 0, fuel, fuel2);
  }

  lemma {:induction false} EntriesMoreFuel(cur: map<string, Tree>, bound: map<string, Tree>, bases: Bases, subs: Subs, cfg: Config, loader: Loader, fuel: nat, fuel2: nat)
    requires fuel <= fuel2
    requires forall k | k in cur && IsContainer(cur[k]) :: k in bound && bound[k] == cur[k]
    requires HandleEntries(cur, bound, bases, subs, cfg, loader, fuel).Ok?
    ensures HandleEntries(cur, bound, bases, subs, cfg, loader, fuel2) == HandleEntries(cur, bound, bases, subs, cfg, loader, fuel)
    decreases fuel, Obj(bound), 0
  {
    var r1 := map k | k in cur ::
      if IsContainer(cur[k]) then HandleAll(cur[k], bases, subs, cfg, loader, 0, fuel) else Ok(cur[k]);
    var r2 := map k | k in cur ::
      if IsContainer(cur[k]) then HandleAll(cur[k], bases, subs, cfg, loader, 0, fuel2) else Ok(cur[k]);
    assert forall k | k in r1 :: r1[k].Ok?;
    forall k | k in cur
      ensures r1[k] == r2[k]
    {
      if IsContainer(cur[k]) {
        MoreFuel(cur[k], bases, subs, cfg, loader, 0, fuel, fuel2);
      }
    }
    assert r1 == r2;
  }
}

=== FILE: merge.dfy ===
/** `merge_deep(d, other, replace)`: merges `other` into `d` key by key.
    When both sides hold a dict the merge recurses, and it does so with
    `replace` back at its default `True`; any other collision takes `other`'s
    value only when `replace` is set. Python mutates `d`; here the merged
    dict is returned. */
module Merge {
  import opened Trees

  function MergeDeep(d: map<string, Tree>, other: map<string, Tree>, replace: bool): (r: map<string, Tree>)
    ensures r.Keys == d.Keys + other.Keys
    ensures forall k | k in other && k !in d :: r[k] == other[k]
    ensures forall k | k in d && k !in other :: r[k] == d[k]
    ensures forall k | k in d && d[k].Obj? && (!replace || k !in other || other[k].Obj?) :: r[k].Obj?
    decreases Obj(other)
  {
    map k | k in d.Keys + other.Keys ::
      if k !in other then d[k]
      else if k in d && d[k].Obj? && other[k].Obj? then Obj(MergeDeep(d[k].fields, other[k].fields, true))
      else if replace || k !in d then other[k]
      else d[k]
  }

  /** With `replace` off, as `handle_all` merges an inherited document, a
      top-level value of `d` that is not a dict is never changed: this
      protects scalars, lists and explicit nulls of the inheritor. */
  lemma MergeKeepsTopLevelNonDicts(d: map<string, Tree>, other: map<string, Tree>, k: string)
    requires k in d && !d[k].Obj?
    ensures MergeDeep(d, other, false)[k] == d[k]
  {
  }

  /** With `replace` on, a non-dict value of `other` always wins. */
  lemma MergeReplaceTakesOther(d: map<string, Tree>, other: map<string, Tree>, k: string)
    requires k in other && !(k in d && d[k].Obj? && other[k].Obj?)
    ensures MergeDeep(d, other, true)[k] == other[k]
  {
  }

  /** Where both sides hold a dict the two are merged, with `replace` on
      whatever the caller asked for. */
  lemma MergeNestedAlwaysReplaces(d: map<string, Tree>, other: map<string, Tree>, replace: bool, k: string)
    requires k in d && k in other && d[k].Obj? && other[k].Obj?
    ensures MergeDeep(d, other, replace)[k] == Obj(MergeDeep(d[k].fields, other[k].fields, true))
  {
  }

  /** `t` holds everything `other` holds: every key of `other` is in `t`, with
      the same value, except that dicts only need to be covered recursively. */
  ghost predicate Covers(t: map<string, Tree>, other: map<string, Tree>)
    decreases Obj(other)
  {
    forall k | k in other ::
      k in t && (if other[k].Obj? then t[k].Obj? && Covers(t[k].fields, other[k].fields) else t[k] == other[k])
  }

  /** A merge with `replace` on keeps every leaf of `other`, at every depth. */
  lemma {:induction false} MergeReplaceCoversOther(d: map<string, Tree>, other: map<string, Tree>)
    ensures Covers(MergeDeep(d, other, true), other)
    decreases Obj(other)
  {
    var r := MergeDeep(d, other, true);
    forall k | k in other
      ensures k in r && (if other[k].Obj? then r[k].Obj? && Covers(r[k].fields, other[k].fields) else r[k] == other[k])
    {
      if k in d && d[k].Obj? && other[k].Obj? {
        MergeReplaceCoversOther(d[k].fields, other[k].fields);
      } else if other[k].Obj? {
        CoversSelf(other[k].fields);
      }
    }
  }

  lemma {:induction false} CoversSelf(m: map<string, Tree>)
    ensures Covers(m, m)
    decreases Obj(m)
  {
    forall k | k in m && m[k].Obj?
      ensures Covers(m[k].fields, m[k].fields)
    {
      CoversSelf(m[k].fields);
    }
  }

  /** Merging a dict into itself changes nothing, whatever `replace` says. */
  lemma {:induction false} MergeSelf(d: map<string, Tree>, replace: bool)
    ensures MergeDeep(d, d, replace) == d
    decreases Obj(d)
  {
    var r := MergeDeep(d, d, replace);
    forall k | k in d
      ensures r[k] == d[k]
    {
      if d[k].Obj? {
        MergeSelf(d[k].fields, true);
      }
    }
  }

  /** Merging an empty dict changes nothing; merging into an empty dict copies. */
  lemma MergeEmpty(d: map<string, Tree>, replace: bool)
    ensures MergeDeep(d, map[], replace) == d
    ensures MergeDeep(map[], d, replace) == d
  {
  }

  /** Only the top level is protected when `replace` is off: one level down
      a collision is decided for `other`, so `{"a": {"x": 1}}` merged with
      `{"a": {"x": 2}}` without replacing gives `{"a": {"x": 2}}`. */
  lemma NestedScalarIsReplaced()
    ensures MergeDeep(map["a" := Obj(map["x" := Num("1")])], map["a" := Obj(map["x" := Num("2")])], false)
         == map["a" := Obj(map["x" := Num("2")])]
  {
    var inner := MergeDeep(map["x" := Num("1")], map["x" := Num("2")], true);
    assert inner == map["x" := Num("2")];
  }
}

=== FILE: paths.dfy ===
/** The parts of Python's `posixpath` (`os.path` on POSIX) that the
    preprocessor calls: `isabs`, two-argument `join`, `dirname`, `splitext`
    and `commonprefix` of two strings. All are pure string functions. */
module PosixPath {
  import opened Text

  /** `os.path.isabs(p)` */
  predicate IsAbs(p: string) {
    |p| > 0 && p[0] == '/'
  }

  predicate AllSlashes(s: string) {
    forall i | 0 <= i < |s| :: s[i] == '/'
  }

  /** `s.rstrip('/')` */
  function StripTrailingSlashes(s: string): (r: string)
    ensures IsPrefix(r, s)
    ensures r == "" || r[|r| - 1] != '/'
    ensures AllSlashes(s[|r|..])
    decreases |s|
  {
    if |s| > 0 && s[|s| - 1] == '/' then
      var r := StripTrailingSlashes(s[..|s| - 1]);
      assert s[|r|..] == s[..|s| - 1][|r|..] + [s[|s| - 1]];
      r
    else s
  }

  /** `os.path.join(a, b)`: an absolute `b` replaces `a`; otherwise a single
      `/` is put between them unless `a` is empty or already ends in one. */
  function Join(a: string, b: string): (r: string)
    ensures IsAbs(b) ==> r == b
    ensures !IsAbs(b) ==> IsPrefix(a, r) && IsSuffix(b, r) && |r| <= |a| + 1 + |b|
  {
    if IsAbs(b) then b
    else if a == "" || a[|a| - 1] == '/' then a + b
    else a + "/" + b
  }

  /** `os.path.dirname(p)`: everything up to the last `/`, with trailing
      slashes removed unless that part consists of slashes only. */
  function DirName(p: string): (r: string)
    ensures IsPrefix(r, p)
    ensures '/' !in p ==> r == ""
    ensures r == "" || AllSlashes(r) || r[|r| - 1] != '/'
  {
    var head := p[..LastIndexOf(p, '/') + 1];
    if head != "" && !AllSlashes(head) then StripTrailingSlashes(head) else head
  }

  /** The directory a path was joined from is its `dirname` again, for a
      file name without a slash and a directory without a trailing one. */
  lemma JoinDirName(dir: string, name: string)
    requires name != "" && '/' !in name
    requires dir == "" || dir[|dir| - 1] != '/'
    ensures DirName(Join(dir, name)) == dir
  {
    var p := Join(dir, name);
    var i := LastIndexOf(p, '/');
    if dir == "" {
      assert p == name;
      assert i == -1;
    } else {
      assert p == dir + "/" + name;
      assert p[|dir|] == '/';
      assert forall j | |dir| < j < |p| :: p[j] == name[j - |dir| - 1];
      assert i == |dir|;
      var head := p[..i + 1];
      assert head == dir + "/";
      assert head[|dir| - 1] != '/';
      assert !AllSlashes(head);
      assert StripTrailingSlashes(head) == StripTrailingSlashes(dir);
    }
  }

  /** Some character in `p[lo..hi]` is not a dot. */
  predicate HasNonDot(p: string, lo: int, hi: int)
    requires 0 <= lo && hi <= |p|
  {
    exists j | lo <= j < hi :: p[j] != '.'
  }

  /** `os.path.splitext(p)`: the extension runs from the last dot of the last
      path component to the end, unless that component is only dots before it
      (so `.bashrc` has no extension). */
  function SplitExt(p: string): (r: (string, string))
    ensures r.0 + r.1 == p
    ensures r.1 == "" || (r.1[0] == '.' && '/' !in r.1 && '.' !in r.1[1..])
  {
    var sepIndex := LastIndexOf(p, '/');
    var dotIndex := LastIndexOf(p, '.');
    if dotIndex > sepIndex && HasNonDot(p, sepIndex + 1, dotIndex) then
      (p[..dotIndex], p[dotIndex..])
    else
      (p, "")
  }

  /** Adding an extension is undone by `splitext`, as long as the last path
      component of the root holds a character other than a dot. */
  lemma SplitExtOfAddedExtension(root: string, e: string)
    requires '.' !in e && '/' !in e
    requires HasNonDot(root, LastIndexOf(root, '/') + 1, |root|)
    ensures SplitExt(root + "." + e) == (root, "." + e)
  {
    var p := root + "." + e;
    AddedExtensionIndices(root, e);
    AddedExtensionParts(root, e);
    HasNonDotExtended(root, e, LastIndexOf(root, '/') + 1);
    SplitExtAtDot(p, LastIndexOf(root, '/'), |root|);
  }

  /** `splitext` cuts at the last dot when it follows the last `/` and the
      component before it holds a character other than a dot. */
  lemma SplitExtAtDot(p: string, sep: int, dot: int)
    requires sep == LastIndexOf(p, '/') && dot == LastIndexOf(p, '.')
    requires sep < dot && HasNonDot(p, sep + 1, dot)
    ensures SplitExt(p) == (p[..dot], p[dot..])
  {
  }

  /** A non-dot character of the root is still there after adding an
      extension. */
  lemma HasNonDotExtended(root: string, e: string, lo: int)
    requires 0 <= lo && HasNonDot(root, lo, |root|)
    ensures HasNonDot(root + "." + e, lo, |root|)
  {
    var j :| lo <= j < |root| && root[j] != '.';
    assert (root + "." + e)[j] == root[j];
  }

  /** The root and the added extension are the two halves of the result. */
  lemma AddedExtensionParts(root: string, e: string)
    ensures (root + "." + e)[..|root|] == root
    ensures (root + "." + e)[|root|..] == "." + e
  {
    assert root + "." + e == root + ("." + e);
  }

  /** After adding an extension, the last `/` is the root's and the last dot
      is the added one. */
  lemma AddedExtensionIndices(root: string, e: string)
    requires '.' !in e && '/' !in e
    ensures LastIndexOf(root + "." + e, '/') == LastIndexOf(root, '/')
    ensures LastIndexOf(root + "." + e, '.') == |root|
  {
    var p := root + "." + e;
    assert p == root + ("." + e);
    LastIndexOfAppend(root, "." + e, '/');
    assert p == (root + ".") + e;
    LastIndexOfAppend(root + ".", e, '.');
  }

  /** `os.path.commonprefix([a, b])`: the longest common leading substring,
      compared character by character. */
  function CommonPrefix(a: string, b: string): (r: string)
    ensures IsPrefix(r, a) && IsPrefix(r, b)
    ensures |r| == |a| || |r| == |b| || a[|r|] != b[|r|]
    decreases |a|
  {
    if |a| == 0 || |b| == 0 || a[0] != b[0] then ""
    else [a[0]] + CommonPrefix(a[1..], b[1..])
  }

  /** No common prefix is longer than `CommonPrefix`: every one is a prefix of it. */
  lemma CommonPrefixIsLongest(a: string, b: string, p: string)
    requires IsPrefix(p, a) && IsPrefix(p, b)
    ensures IsPrefix(p, CommonPrefix(a, b))
  {
    assert forall i | 0 <= i < |p| :: p[i] == a[i] && p[i] == b[i];
  }

  /** `commonprefix` does not depend on the order of its two arguments, as
      Python's sorting of the list before comparing suggests. */
  lemma {:induction false} CommonPrefixSymmetric(a: string, b: string)
    ensures CommonPrefix(a, b) == CommonPrefix(b, a)
    decreases |a|
  {
    if |a| > 0 && |b| > 0 && a[0] == b[0] {
      CommonPrefixSymmetric(a[1..], b[1..]);
    }
  }
}

=== FILE: reference.dfy ===
/** `inherit_to_source(ref, bases)`: turns a `$$inherit` reference into the
    locator the document is loaded from. */
module Reference {
  import opened Text
  import opened Trees
  import PosixPath
  import Urls

  /** The `bases` dict: `id` is the identifier prefix the documents are
      published under, `dir` the directory that prefix maps to, `self` the
      directory of the document being processed. `id` and `dir` may hold
      None; `self` may be missing altogether (None here). */
  datatype Bases = Bases(id: Option<string>, dir: Option<string>, self: Option<string>)

  /** `absref[len(id):]`: Python slicing past the end gives the empty string. */
  function DropPrefixLength(s: string, id: string): (r: string)
    ensures IsPrefix(id, s) ==> id + r == s
    ensures |id| >= |s| ==> r == ""
  {
    if |id| <= |s| then s[|id|..] else ""
  }

  function InheritToSource(ref: string, bases: Bases): (r: Result<string>)
    ensures Urls.UrlParse(ref, "").scheme !in {"", "file"} ==> r == Ok(ref)
    ensures r.Err? ==> r.error == MissingBase
  {
    var parsed := Urls.UrlParse(ref, "");
    if parsed.scheme in {"file", ""} then
      var path := parsed.path;
      if PosixPath.IsAbs(path) then
        if bases.id.None? || bases.dir.None? then Err(MissingBase)
        else
          var absref := Urls.UrlJoinAbsPath(bases.id.value, path);
          Ok(PosixPath.Join(bases.dir.value, DropPrefixLength(absref, bases.id.value)))
      else if bases.self.None? then Err(MissingBase)
      else Ok(PosixPath.Join(bases.self.value, path))
    else Ok(ref)
  }

  /** A reference that is a plain relative path is joined onto the
      directory of the document that holds it. */
  lemma RelativeReference(ref: string, bases: Bases)
    requires ':' !in ref && ';' !in ref && '?' !in ref && '#' !in ref && !PosixPath.IsAbs(ref)
    requires bases.self.Some?
    ensures InheritToSource(ref, bases) == Ok(PosixPath.Join(bases.self.value, ref))
  {
    Urls.PlainPathParse(ref);
  }

  /** With `self` = `a/b` the reference `r` resolves to `a/b/r`; with an empty
      `self` it resolves to itself. */
  lemma RelativeReferenceExamples(ref: string, id: Option<string>, dir: Option<string>)
    requires ':' !in ref && ';' !in ref && '?' !in ref && '#' !in ref && !PosixPath.IsAbs(ref)
    ensures InheritToSource(ref, Bases(id, dir, Some("a/b"))) == Ok("a/b/" + ref)
    ensures InheritToSource(ref, Bases(id, dir, Some(""))) == Ok(ref)
  {
    RelativeReference(ref, Bases(id, dir, Some("a/b")));
    RelativeReference(ref, Bases(id, dir, Some("")));
    assert "a/b"[2] != '/';
    assert "a/b" + "/" + ref == "a/b/" + ref;
    assert "" + ref == ref;
  }

  /** A relative reference fails when `bases` has no `self`, as it does after
      `process` rebuilt `bases` from a document's `$id`. */
  lemma RelativeReferenceNeedsSelf(ref: string, id: Option<string>, dir: Option<string>)
    requires ':' !in ref && ';' !in ref && '?' !in ref && '#' !in ref && !PosixPath.IsAbs(ref)
    ensures InheritToSource(ref, Bases(id, dir, None)) == Err(MissingBase)
  {
    Urls.PlainPathParse(ref);
  }

  /** An absolute reference under a URL id `scheme://host` + `idPath`: the
      id's `scheme://host` is put before the reference, the id is cut off by
      length, and the rest is joined onto `dir`. When `idPath` is a prefix of
      the reference, what is joined is the reference after `idPath`. */
  lemma AbsoluteReference(ref: string, scheme: string, host: string, idPath: string, dir: string, self: Option<string>)
    requires ':' !in ref && ';' !in ref && '?' !in ref && '#' !in ref && Urls.IsCleanPath(ref)
    requires Urls.IsLowerScheme(scheme) && scheme in Urls.UsesRelative && Urls.IsHost(host)
    requires idPath == "" || PosixPath.IsAbs(idPath)
    ensures var id := scheme + "://" + host + idPath;
      InheritToSource(ref, Bases(Some(id), Some(dir), self))
        == Ok(PosixPath.Join(dir, DropPrefixLength(scheme + "://" + host + ref, id)))
    ensures IsPrefix(idPath, ref) ==>
      InheritToSource(ref, Bases(Some(scheme + "://" + host + idPath), Some(dir), self))
        == Ok(PosixPath.Join(dir, ref[|idPath|..]))
  {
    var id := scheme + "://" + host + idPath;
    Urls.PlainPathParse(ref);
    Urls.ParseHostUrl(scheme, host, idPath);
    Urls.UrlJoinHostPath(scheme, host, idPath, ref);
    if IsPrefix(idPath, ref) {
      PrefixAfterOrigin(scheme + "://" + host, idPath, ref);
    }
  }

  /** Cutting `origin + idPath` off `origin + ref` by length leaves what
      follows `idPath` in `ref` when `idPath` is a prefix of `ref`. */
  lemma PrefixAfterOrigin(origin: string, idPath: string, ref: string)
    requires IsPrefix(idPath, ref)
    ensures DropPrefixLength(origin + ref, origin + idPath) == ref[|idPath|..]
  {
    assert (origin + ref)[|origin + idPath|..] == ref[|idPath|..];
  }

  /** An empty segment is kept by `urljoin`: with the id
      `scheme://host/p/` (say `https://x/schemas/`) the reference `/p//c`
      leaves `/c` after the cut, and joining that absolute path onto `dir`
      discards `dir`. */
  lemma EmptySegmentLeavesDir(scheme: string, host: string, p: string, c: string, dir: string, self: Option<string>)
    requires Urls.IsLowerScheme(scheme) && scheme in Urls.UsesRelative && Urls.IsHost(host)
    requires p != "" && p != "." && p != ".." && c != "." && c != ".."
    requires forall ch | ch in p + c :: ch !in "/:;?#"
    ensures var id := scheme + "://" + host + "/" + p + "/";
      InheritToSource("/" + p + "//" + c, Bases(Some(id), Some(dir), self)) == Ok("/" + c)
  {
    var ref := "/" + p + "//" + c;
    var idPath := "/" + p + "/";
    CleanEmptySegment(p, c);
    assert ref == idPath + ("/" + c);
    assert ref[|idPath|..] == "/" + c;
    assert scheme + "://" + host + "/" + p + "/" == scheme + "://" + host + idPath;
    AbsoluteReference(ref, scheme, host, idPath, dir, self);
  }

  /** `/p//c` is a clean absolute path without `:`, `;`, `?` or `#`. */
  lemma CleanEmptySegment(p: string, c: string)
    requires p != "" && p != "." && p != ".." && c != "." && c != ".."
    requires forall ch | ch in p + c :: ch !in "/:;?#"
    ensures var ref := "/" + p + "//" + c;
      Urls.IsCleanPath(ref) && ':' !in ref && ';' !in ref && '?' !in ref && '#' !in ref
  {
    var ref := "/" + p + "//" + c;
    var segs := ["", p, "", c];
    assert forall ch | ch in p :: ch in p + c;
    assert forall ch | ch in c :: ch in p + c;
    assert ["", c][1..] == [c] && [p, "", c][1..] == ["", c] && segs[1..] == [p, "", c];
    assert Join(["", c], "/") == "/" + c;
    assert Join([p, "", c], "/") == p + "/" + ("/" + c);
    assert Join(segs, "/") == ref;
    Text.JoinSplit(segs, '/');
    assert ref[1] == p[0];
  }
}

=== FILE: substitute.dfy ===
/** `recursive_replace(d, subs)`: the literal substitutions given with `-s`
    are applied to every string value of a dict and of the dicts nested in
    it. Keys, other scalars and everything inside lists are left alone. */
module Substitute {
  import opened Text
  import opened Trees

  /** The substitution table, in the order the pairs are applied. */
  type Pairs = seq<(string, string)>

  /** Each pair is applied as a replace-all, in table order, so a later pair
      sees the text produced by the earlier ones. */
  function ApplyPairs(s: string, subs: Pairs): (r: string)
    ensures subs == [] ==> r == s
    ensures (forall i | 0 <= i < |subs| :: subs[i].0 == subs[i].1) ==> r == s
    ensures |subs| == 1 ==> r == ReplaceAll(s, subs[0].0, subs[0].1)
    decreases |subs|
  {
    if |subs| == 0 then s
    else ApplyPairs(ReplaceAll(s, subs[0].0, subs[0].1), subs[1..])
  }

  /** Applying two tables one after the other is applying their
      concatenation. */
  lemma {:induction false} ApplyPairsConcat(s: string, a: Pairs, b: Pairs)
    ensures ApplyPairs(s, a + b) == ApplyPairs(ApplyPairs(s, a), b)
    decreases |a|
  {
    if |a| > 0 {
      assert (a + b)[1..] == a[1..] + b;
      ApplyPairsConcat(ReplaceAll(s, a[0].0, a[0].1), a[1..], b);
    } else {
      assert a + b == b;
    }
  }

  /** The last pair of a table is a `str.replace` of its `lhs` by its `rhs`
      on what the earlier pairs produced; with the empty table this fixes
      the result of every table. */
  lemma ApplyPairsLast(s: string, subs: Pairs, lhs: string, rhs: string)
    ensures ApplyPairs(s, subs + [(lhs, rhs)]) == ReplaceAll(ApplyPairs(s, subs), lhs, rhs)
  {
    ApplyPairsConcat(s, subs, [(lhs, rhs)]);
  }

  /** Order matters: replacing `a` by `b` and then `b` by `c` turns `a` into
      `c`, while the other order leaves `b`. */
  lemma PairOrderMatters()
    ensures ApplyPairs("a", [("a", "b"), ("b", "c")]) == "c"
    ensures ApplyPairs("a", [("b", "c"), ("a", "b")]) == "b"
  {
    assert ReplaceAll("a", "a", "b") == "b" by {
      assert IsPrefix("a", "a");
      assert "a"[1..] == "";
    }
    assert ReplaceAll("b", "b", "c") == "c" by {
      assert IsPrefix("b", "b");
      assert "b"[1..] == "";
    }
    assert ReplaceAll("a", "b", "c") == "a" by {
      assert !IsPrefix("b", "a");
      assert "a"[1..] == "";
    }
  }

  /** One value after substitution. */
  function ReplaceValue(v: Tree, subs: Pairs): (r: Tree)
    decreases v, 1
  {
    match v
    case Str(s) => Str(ApplyPairs(s, subs))
    case Obj(m) => Obj(RecursiveReplace(m, subs))
    case _ => v
  }

  /** `recursive_replace(d, subs)` on a dict. */
  function RecursiveReplace(m: map<string, Tree>, subs: Pairs): (r: map<string, Tree>)
    ensures r.Keys == m.Keys
    ensures forall k | k in m && !m[k].Str? && !m[k].Obj? :: r[k] == m[k]
    ensures forall k | k in m && m[k].Str? :: r[k] == Str(ApplyPairs(m[k].s, subs))
    ensures forall k | k in m && m[k].Obj? :: r[k] == Obj(RecursiveReplace(m[k].fields, subs))
    decreases Obj(m), 0
  {
    map k | k in m :: ReplaceValue(m[k], subs)
  }

  /** Two substitution passes are one pass with the concatenated table. */
  lemma {:induction false} RecursiveReplaceConcat(m: map<string, Tree>, a: Pairs, b: Pairs)
    ensures RecursiveReplace(RecursiveReplace(m, a), b) == RecursiveReplace(m, a + b)
    decreases Obj(m), 0
  {
    var once := RecursiveReplace(m, a);
    var l := RecursiveReplace(once, b);
    var r := RecursiveReplace(m, a + b);
    forall k | k in m
      ensures l[k] == r[k]
    {
      assert once[k] == ReplaceValue(m[k], a);
      ReplaceValueConcat(m[k], a, b);
    }
  }

  lemma {:induction false} ReplaceValueConcat(v: Tree, a: Pairs, b: Pairs)
    ensures ReplaceValue(ReplaceValue(v, a), b) == ReplaceValue(v, a + b)
    decreases v, 1
  {
    match v
    case Str(s) => ApplyPairsConcat(s, a, b);
    case Obj(n) => RecursiveReplaceConcat(n, a, b);
    case _ =>
  }

  /** An empty table, or one whose pairs replace a string by itself, leaves
      the dict unchanged. */
  lemma {:induction false} RecursiveReplaceIdentity(m: map<string, Tree>, subs: Pairs)
    requires forall i | 0 <= i < |subs| :: subs[i].0 == subs[i].1
    ensures RecursiveReplace(m, subs) == m
    decreases Obj(m)
  {
    var r := RecursiveReplace(m, subs);
    forall k | k in m
      ensures r[k] == m[k]
    {
      if m[k].Obj? {
        RecursiveReplaceIdentity(m[k].fields, subs);
      }
    }
  }

  /** Lists are not entered: a string inside a list keeps its text. */
  lemma ListsUntouched(m: map<string, Tree>, subs: Pairs, k: string)
    requires k in m && m[k].List?
    ensures RecursiveReplace(m, subs)[k] == m[k]
  {
  }

  /** At every depth of dicts: a path reaches a value after substitution
      exactly when it did before; a string found there has had the pairs
      applied, a dict is still a dict with the same keys, and any other
      value, a list included, is unchanged. */
  lemma {:induction false} RecursiveReplaceAt(m: map<string, Tree>, subs: Pairs, path: seq<string>)
    ensures At(Obj(RecursiveReplace(m, subs)), path).Some? <==> At(Obj(m), path).Some?
    ensures At(Obj(m), path).Some? && At(Obj(m), path).value.Str? ==>
      At(Obj(RecursiveReplace(m, subs)), path) == Some(Str(ApplyPairs(At(Obj(m), path).value.s, subs)))
    ensures At(Obj(m), path).Some? && At(Obj(m), path).value.Obj? ==>
      At(Obj(RecursiveReplace(m, subs)), path).value.Obj? &&
      At(Obj(RecursiveReplace(m, subs)), path).value.fields.Keys == At(Obj(m), path).value.fields.Keys
    ensures At(Obj(m), path).Some? && !At(Obj(m), path).value.Str? && !At(Obj(m), path).value.Obj? ==>
      At(Obj(RecursiveReplace(m, subs)), path) == At(Obj(m), path)
    decreases |path|
  {
    if |path| > 0 && path[0] in m {
      var k := path[0];
      var r := RecursiveReplace(m, subs);
      if |path| == 1 {
        assert At(Obj(m), path) == Some(m[k]) && At(Obj(r), path) == Some(r[k]);
      } else if m[k].Obj? {
        RecursiveReplaceAt(m[k].fields, subs, path[1..]);
      } else {
        assert At(Obj(m), path) == At(m[k], path[1..]);
        assert At(m[k], path[1..]) == None;
        assert At(r[k], path[1..]) == None;
      }
    }
  }
}

=== FILE: text.dfy ===
/** String operations of Python's `str` type that the preprocessor relies on:
    prefix and suffix tests, substring membership (`in`), `replace`,
    `split` on one character, `'sep'.join`, `rfind` and ASCII `lower`. */
module Text {

  /** `s.startswith(p)` */
  predicate IsPrefix(p: string, s: string) {
    |p| <= |s| && s[..|p|] == p
  }

  /** `s.endswith(p)` */
  predicate IsSuffix(p: string, s: string) {
    |p| <= |s| && s[|s| - |p|..] == p
  }

  /** `sub in s` for two strings: `sub` occurs somewhere in `s` (the empty
      string occurs in every string). */
  predicate Occurs(sub: string, s: string)
    decreases |s|
  {
    IsPrefix(sub, s) || (|s| > 0 && Occurs(sub, s[1..]))
  }

  /** An occurrence at a known position is found by `Occurs`. */
  lemma {:induction false} OccursAt(sub: string, s: string, i: nat)
    requires i + |sub| <= |s| && s[i..i + |sub|] == sub
    ensures Occurs(sub, s)
    decreases i
  {
    if i > 0 {
      assert s[1..][i - 1..i - 1 + |sub|] == sub;
      OccursAt(sub, s[1..], i - 1);
    }
  }

  /** `Occurs` finds nothing but real occurrences. */
  lemma {:induction false} OccursWitness(sub: string, s: string) returns (i: nat)
    requires Occurs(sub, s)
    ensures i + |sub| <= |s| && s[i..i + |sub|] == sub
    decreases |s|
  {
    if IsPrefix(sub, s) {
      i := 0;
    } else {
      var j := OccursWitness(sub, s[1..]);
      assert s[1..][j..j + |sub|] == s[j + 1..j + 1 + |sub|];
      i := j + 1;
    }
  }

  /** A string never occurs in a shorter one. */
  lemma OccursOnlyInLonger(sub: string, s: string)
    requires |s| < |sub|
    ensures !Occurs(sub, s)
  {
    if Occurs(sub, s) {
      var i := OccursWitness(sub, s);
    }
  }

  /** Python's `s.replace(lhs, rhs)` with an empty `lhs`: `rhs` is inserted
      before every character and once more at the end. */
  function InsertEverywhere(s: string, rhs: string): (r: string)
    ensures |r| == |s| + (|s| + 1) * |rhs|
    ensures rhs == [] ==> r == s
    ensures IsPrefix(rhs, r)
    decreases |s|
  {
    if |s| == 0 then rhs else rhs + [s[0]] + InsertEverywhere(s[1..], rhs)
  }

  /** Python's `s.replace(lhs, rhs)`: every occurrence of `lhs`, scanned left
      to right without overlap, is replaced by `rhs`. */
  function ReplaceAll(s: string, lhs: string, rhs: string): (r: string)
    ensures lhs == rhs ==> r == s
    ensures |lhs| > 0 && !Occurs(lhs, s) ==> r == s
    decreases |s|
  {
    if |lhs| == 0 then InsertEverywhere(s, rhs)
    else if IsPrefix(lhs, s) then rhs + ReplaceAll(s[|lhs|..], lhs, rhs)
    else if |s| == 0 then s
    else [s[0]] + ReplaceAll(s[1..], lhs, rhs)
  }

  /** `rhs` takes the place of a leading occurrence: `lhs` followed by a
      string without `lhs` becomes `rhs` followed by that string. */
  lemma {:induction false} ReplaceLeadingOccurrence(lhs: string, rhs: string, rest: string)
    requires |lhs| > 0 && !Occurs(lhs, rest)
    ensures ReplaceAll(lhs + rest, lhs, rhs) == rhs + rest
  {
    assert (lhs + rest)[..|lhs|] == lhs;
    assert (lhs + rest)[|lhs|..] == rest;
  }

  /** `i` steps of width `k + 1`, which is `i * (k + 1)` (see `StrideIsProduct`),
      spelled out so that offsets need no multiplication. */
  function Stride(i: nat, k: nat): nat {
    if i == 0 then 0 else Stride(i - 1, k) + k + 1
  }

  lemma {:induction false} StrideIsProduct(i: nat, k: nat)
    ensures Stride(i, k) == i * (k + 1)
  {
    if i > 0 {
      StrideIsProduct(i - 1, k);
    }
  }

  /** Where the copies of `rhs` go in `s.replace("", rhs)`: character `i` of
      `s` sits at `Stride(i, |rhs|) + |rhs|` = `i * (|rhs| + 1) + |rhs|`,
      preceded by a copy of `rhs`; `InsertEverywhereEnd` adds the copy that
      ends the result (`"ab".replace("", "x")` is `"xaxbx"`). */
  lemma InsertEverywhereLayout(s: string, rhs: string)
    ensures forall i | 0 <= i < |s| ::
      Stride(i, |rhs|) + |rhs| < |InsertEverywhere(s, rhs)| &&
      InsertEverywhere(s, rhs)[Stride(i, |rhs|)..Stride(i, |rhs|) + |rhs|] == rhs &&
      InsertEverywhere(s, rhs)[Stride(i, |rhs|) + |rhs|] == s[i]
  {
    forall i | 0 <= i < |s| {
      InsertEverywhereAt(s, rhs, i);
    }
  }

  /** The copy of `rhs` before character `i`, and the character itself. */
  lemma {:induction false} InsertEverywhereAt(s: string, rhs: string, i: nat)
    requires i < |s|
    ensures Stride(i, |rhs|) + |rhs| < |InsertEverywhere(s, rhs)|
    ensures InsertEverywhere(s, rhs)[Stride(i, |rhs|)..Stride(i, |rhs|) + |rhs|] == rhs
    ensures InsertEverywhere(s, rhs)[Stride(i, |rhs|) + |rhs|] == s[i]
    decreases i
  {
    var k := |rhs|;
    var head := rhs + [s[0]];
    var rest := InsertEverywhere(s[1..], rhs);
    assert InsertEverywhere(s, rhs) == head + rest;
    if i > 0 {
      InsertEverywhereAt(s[1..], rhs, i - 1);
      var q := Stride(i - 1, k);
      assert Stride(i, k) == |head| + q;
      ShiftedSlice(head, rest, q, k);
    }
  }

  /** The copy of `rhs` after the last character ends the result. */
  lemma {:induction false} InsertEverywhereEnd(s: string, rhs: string)
    ensures Stride(|s|, |rhs|) <= |InsertEverywhere(s, rhs)|
    ensures InsertEverywhere(s, rhs)[Stride(|s|, |rhs|)..] == rhs
    decreases |s|
  {
    if |s| > 0 {
      var k := |rhs|;
      var head := rhs + [s[0]];
      var rest := InsertEverywhere(s[1..], rhs);
      assert InsertEverywhere(s, rhs) == head + rest;
      InsertEverywhereEnd(s[1..], rhs);
      var q := Stride(|s| - 1, k);
      assert Stride(|s|, k) == |head| + q;
      assert (head + rest)[|head| + q..] == rest[q..];
    }
  }

  /** Positions of `rest` shift by `|head|` in `head + rest`. */
  lemma ShiftedSlice(head: string, rest: string, q: nat, k: nat)
    requires q + k < |rest|
    ensures (head + rest)[|head| + q..|head| + q + k] == rest[q..q + k]
    ensures (head + rest)[|head| + q + k] == rest[q + k]
  {
  }

  /** `replace` works left to right and leaves no occurrence behind: when the
      first occurrence of `lhs` in `a + lhs + b` is the one after `a` (no
      occurrence of `lhs` ends inside `a + lhs` before it), the result is `a`,
      then `rhs`, then the replacement of every occurrence in `b`. With
      `ReplaceAll`'s own contract for a string without `lhs`, this fixes the
      result for every input: `"aa".replace("a", "b")` is `"bb"`. */
  lemma {:induction false} ReplaceFirstOccurrence(a: string, lhs: string, rhs: string, b: string)
    requires |lhs| > 0 && !Occurs(lhs, a + lhs[..|lhs| - 1])
    ensures ReplaceAll(a + lhs + b, lhs, rhs) == a + rhs + ReplaceAll(b, lhs, rhs)
    decreases |a|
  {
    if |a| == 0 {
      LeadingStep(lhs, rhs, b);
      EmptyPrefix(a, lhs + b);
      EmptyPrefix(a, rhs + ReplaceAll(b, lhs, rhs));
    } else {
      SkipStep(a, lhs, rhs, b);
      ReplaceFirstOccurrence(a[1..], lhs, rhs, b);
      ConsAssoc(a, rhs, ReplaceAll(b, lhs, rhs), ReplaceAll(a + lhs + b, lhs, rhs),
                ReplaceAll(a[1..] + lhs + b, lhs, rhs));
    }
  }

  lemma ConsAssoc(a: string, t: string, u: string, whole: string, rest: string)
    requires |a| > 0 && whole == [a[0]] + rest && rest == a[1..] + t + u
    ensures whole == a + t + u
  {
  }

  lemma EmptyPrefix(a: string, t: string)
    requires |a| == 0
    ensures a + t == t
  {
  }

  lemma LeadingStep(lhs: string, rhs: string, b: string)
    requires |lhs| > 0
    ensures ReplaceAll(lhs + b, lhs, rhs) == rhs + ReplaceAll(b, lhs, rhs)
  {
    assert (lhs + b)[..|lhs|] == lhs;
    assert (lhs + b)[|lhs|..] == b;
  }

  /** Before the first occurrence, `replace` copies one character and moves on. */
  lemma SkipStep(a: string, lhs: string, rhs: string, b: string)
    requires |a| > 0 && |lhs| > 0 && !Occurs(lhs, a + lhs[..|lhs| - 1])
    ensures !Occurs(lhs, a[1..] + lhs[..|lhs| - 1])
    ensures ReplaceAll(a + lhs + b, lhs, rhs) == [a[0]] + ReplaceAll(a[1..] + lhs + b, lhs, rhs)
  {
    var p := a + lhs[..|lhs| - 1];
    var s := a + lhs + b;
    assert p[..|lhs|] == s[..|lhs|];
    assert !IsPrefix(lhs, s);
    assert p[1..] == a[1..] + lhs[..|lhs| - 1];
    assert s[1..] == a[1..] + lhs + b;
    assert s[0] == a[0];
  }

  /** Both occurrences of `lhs` in `lhs + lhs` are replaced, as with
      `"aa".replace("a", "b") == "bb"`. */
  lemma ReplaceEveryOccurrence(lhs: string, rhs: string)
    requires |lhs| > 0
    ensures ReplaceAll(lhs + lhs, lhs, rhs) == rhs + rhs
  {
    assert [] + lhs[..|lhs| - 1] == lhs[..|lhs| - 1];
    OccursOnlyInLonger(lhs, lhs[..|lhs| - 1]);
    OccursOnlyInLonger(lhs, []);
    ReplaceFirstOccurrence([], lhs, rhs, lhs);
    assert [] + lhs + lhs == lhs + lhs;
    ReplaceLeadingOccurrence(lhs, rhs, []);
    assert lhs + [] == lhs;
  }

  /** Python's `s.split(c)` for a one-character separator. */
  function Split(s: string, c: char): (parts: seq<string>)
    ensures |parts| >= 1
    ensures forall i | 0 <= i < |parts| :: c !in parts[i]
    ensures |parts| == 1 ==> parts[0] == s
    decreases |s|
  {
    if |s| == 0 then [""]
    else
      var rest := Split(s[1..], c);
      if s[0] == c then [""] + rest else [[s[0]] + rest[0]] + rest[1..]
  }

  /** Python's `sep.join(parts)`. */
  function Join(parts: seq<string>, sep: string): string
    decreases |parts|
  {
    if |parts| == 0 then ""
    else if |parts| == 1 then parts[0]
    else parts[0] + sep + Join(parts[1..], sep)
  }

  lemma JoinConsHead(x: string, parts: seq<string>, sep: string)
    requires |parts| >= 1
    ensures Join([x + parts[0]] + parts[1..], sep) == x + Join(parts, sep)
  {
    var ps := [x + parts[0]] + parts[1..];
    assert ps[1..] == parts[1..];
  }

  /** Joining the pieces of a split with the separator gives back the
      string: `c.join(s.split(c)) == s`. */
  lemma {:induction false} SplitJoin(s: string, c: char)
    ensures Join(Split(s, c), [c]) == s
    decreases |s|
  {
    if |s| > 0 {
      var rest := Split(s[1..], c);
      SplitJoin(s[1..], c);
      if s[0] == c {
        var ps := [""] + rest;
        assert ps[1..] == rest;
        assert Join(ps, [c]) == [c] + Join(rest, [c]);
        assert s == [c] + s[1..];
      } else {
        JoinConsHead([s[0]], rest, [c]);
        assert s == [s[0]] + s[1..];
      }
    }
  }

  /** Splitting a separator-free join gives back the pieces:
      `c.join(ps).split(c) == ps` when no piece holds `c`. */
  lemma {:induction false} JoinSplit(parts: seq<string>, c: char)
    requires |parts| >= 1
    requires forall i | 0 <= i < |parts| :: c !in parts[i]
    ensures Split(Join(parts, [c]), c) == parts
    decreases |parts|, |parts[0]|
  {
    if |parts| == 1 {
      SplitNoSeparator(parts[0], c);
    } else if |parts[0]| == 0 {
      var tail := Join(parts[1..], [c]);
      JoinSplit(parts[1..], c);
      assert Join(parts, [c]) == [c] + tail;
      assert ([c] + tail)[1..] == tail;
      assert parts == [""] + parts[1..];
    } else {
      var p0 := parts[0];
      var shorter := [p0[1..]] + parts[1..];
      assert shorter[1..] == parts[1..];
      JoinSplit(shorter, c);
      var j := Join(parts, [c]);
      assert j == [p0[0]] + Join(shorter, [c]);
      assert j[1..] == Join(shorter, [c]);
      assert p0 == [p0[0]] + p0[1..];
      assert parts == [[p0[0]] + shorter[0]] + shorter[1..];
    }
  }

  lemma {:induction false} SplitNoSeparator(s: string, c: char)
    requires c !in s
    ensures Split(s, c) == [s]
    decreases |s|
  {
    if |s| > 0 {
      assert c !in s[1..];
      SplitNoSeparator(s[1..], c);
    }
  }

  /** `s.rfind(c)`: the last index of `c`, or -1. */
  function LastIndexOf(s: string, c: char): (i: int)
    ensures -1 <= i < |s|
    ensures i >= 0 ==> s[i] == c
    ensures forall j | i < j < |s| :: s[j] != c
    decreases |s|
  {
    if |s| == 0 then -1
    else if s[|s| - 1] == c then |s| - 1
    else LastIndexOf(s[..|s| - 1], c)
  }

  /** Appending characters other than `c` does not move its last index. */
  lemma {:induction false} LastIndexOfAppend(s: string, t: string, c: char)
    requires c !in t
    ensures LastIndexOf(s + t, c) == LastIndexOf(s, c)
    decreases |t|
  {
    if |t| > 0 {
      var u := s + t;
      assert t[|t| - 1] in t;
      assert u[|u| - 1] == t[|t| - 1] != c;
      assert u[..|u| - 1] == s + t[..|t| - 1];
      assert c !in t[..|t| - 1];
      LastIndexOfAppend(s, t[..|t| - 1], c);
    } else {
      assert s + t == s;
    }
  }

  /** `s.find(c, start)`: the first index at or after `start` holding `c`, or -1. */
  function IndexOfFrom(s: string, c: char, start: nat): (i: int)
    ensures i == -1 || start <= i < |s|
    ensures i >= 0 ==> s[i] == c
    ensures forall j | start <= j < |s| && (i == -1 || j < i) :: s[j] != c
    decreases |s| - start
  {
    if start >= |s| then -1
    else if s[start] == c then start
    else IndexOfFrom(s, c, start + 1)
  }

  /** ASCII `lower()`; the only characters that reach it are scheme characters. */
  function LowerChar(ch: char): char {
    if 'A' <= ch <= 'Z' then (ch as int + 32) as char else ch
  }

  function Lower(s: string): (r: string)
    ensures |r| == |s|
    ensures forall i | 0 <= i < |s| :: r[i] == LowerChar(s[i])
  {
    seq(|s|, i requires 0 <= i < |s| => LowerChar(s[i]))
  }
}

=== FILE: tree.dfy ===
/** The parsed document tree of a JSON or YAML property-definition file, and
    the failure type every stage of the preprocessor returns. */
module Trees {
  import Text

  datatype Option<+T> = None | Some(value: T)

  /** Why a stage failed. Each constructor stands for the Python exceptions
      the source raises at that point. */
  datatype Error =
    | LoadFailed(source: string)   // `read_data` could not fetch or parse the source
    | MissingBase                  // a `bases` entry the reference needs is absent (KeyError) or None (TypeError)
    | TypeMismatch                 // an operation met a value of the wrong JSON type (TypeError, AttributeError)
    | InheritNotString             // `$$inherit` is a non-empty list or not a string (urlparse of a non-string)
    | KeepFailed                   // the `$$keep` step read a key that is missing (KeyError)
    | ExcludeFailed                // the `$$exclude` step called the unimported `re` (NameError)
    | PointerInvalid               // an `$$exclude` pointer names a key that is not there
    | NotContainer                 // `handle_all` was given a value that is neither dict nor list
    | Nested                       // a value inside an object failed
    | IdMismatch(expected: string) // `$id` does not end with the document's relative path
    | UnknownSchema                // no schema has the id the instance's `$schema` names
    | NoSchema                     // the instance has no `$schema` to select a schema by
    | OutOfFuel                    // the bound on followed `$$inherit` references was reached

  datatype Result<+T> = Ok(value: T) | Err(error: Error) {
    predicate IsFailure() {
      Err?
    }

    function PropagateFailure<U>(): Result<U>
      requires Err?
    {
      Err(error)
    }

    function Extract(): T
      requires Ok?
    {
      value
    }
  }

  /** A JSON value. Numbers keep their literal text: the preprocessor never
      computes with them. */
  datatype Tree =
    | Null
    | Bool(b: bool)
    | Num(literal: string)
    | Str(s: string)
    | List(items: seq<Tree>)
    | Obj(fields: map<string, Tree>)

  /** The value reached from `t` by indexing with the keys of `path` one
      after the other, each step in a dict; None when a step meets a missing
      key or a value that is not a dict. */
  function At(t: Tree, path: seq<string>): (r: Option<Tree>)
    ensures path == [] ==> r == Some(t)
    decreases |path|
  {
    if |path| == 0 then Some(t)
    else if t.Obj? && path[0] in t.fields then At(t.fields[path[0]], path[1..])
    else None
  }

  /** The values `handle_all` descends into: dicts and lists. */
  predicate IsContainer(t: Tree) {
    t.List? || t.Obj?
  }

  /** Python's `key in value` for a string key: membership among the keys of
      a dict, equality with an element of a list, substring of a string, and
      a TypeError for null, booleans and numbers. */
  function PyIn(key: string, value: Tree): (r: Result<bool>)
    ensures r.Err? <==> !(value.Obj? || value.List? || value.Str?)
    ensures value.Obj? ==> r == Ok(key in value.fields)
    ensures value.List? ==> r == Ok(Str(key) in value.items)
  {
    match value
    case Obj(m) => Ok(key in m)
    case List(items) => Ok(Str(key) in items)
    case Str(s) => Ok(Text.Occurs(key, s))
    case _ => Err(TypeMismatch)
  }
}

=== FILE: urls.dfy ===
/** The parts of Python's `urllib.parse` that the preprocessor calls:
    `urlparse` (scheme, network location, path, parameters, query and
    fragment), `urlunparse`, and `urljoin` for a reference that is an
    absolute path, including its removal of `.` and `..` segments (empty
    segments of an absolute path are kept).
    The behaviour followed is that of CPython 3.9 to 3.11. */
module Urls {
  import opened Text
  import PosixPath

  datatype Url = Url(scheme: string, netloc: string, path: string, params: string, query: string, fragment: string)

  /** Schemes whose URLs may carry `;parameters` on the last path segment. */
  const UsesParams: set<string> :=
    {"", "ftp", "hdl", "prospero", "http", "imap", "https", "shttp", "rtsp", "rtsps",
     "rtspu", "sip", "sips", "mms", "sftp", "tel"}

  /** Schemes for which `urljoin` resolves a reference against a base. */
  const UsesRelative: set<string> :=
    {"", "ftp", "http", "gopher", "nntp", "imap", "wais", "file", "https", "shttp", "mms",
     "prospero", "rtsp", "rtsps", "rtspu", "sftp", "svn", "svn+ssh", "ws", "wss"}

  /** Schemes whose URLs have a `//netloc` part. */
  const UsesNetloc: set<string> :=
    {"", "ftp", "http", "gopher", "nntp", "telnet", "imap", "wais", "file", "mms", "https",
     "shttp", "snews", "prospero", "rtsp", "rtsps", "rtspu", "rsync", "svn", "svn+ssh",
     "sftp", "nfs", "git", "git+ssh", "ws", "wss", "itms-services"}

  predicate IsAsciiAlpha(ch: char) {
    'a' <= ch <= 'z' || 'A' <= ch <= 'Z'
  }

  predicate IsSchemeChar(ch: char) {
    IsAsciiAlpha(ch) || '0' <= ch <= '9' || ch == '+' || ch == '-' || ch == '.'
  }

  /** The text before the first `:` is a scheme when it is non-empty, starts
      with an ASCII letter and holds only scheme characters. */
  predicate HasScheme(url: string) {
    var i := IndexOfFrom(url, ':', 0);
    i > 0 && IsAsciiAlpha(url[0]) && forall j | 0 <= j < i :: IsSchemeChar(url[j])
  }

  /** The scheme (lower-cased) and the rest of the URL after its `:`; a URL
      without a scheme keeps the default. */
  function SplitScheme(url: string, default: string): (r: (string, string))
    ensures !HasScheme(url) ==> r == (default, url)
    ensures HasScheme(url) ==> |r.0| > 0 && |r.0| + 1 + |r.1| == |url| && IsSuffix(r.1, url)
  {
    if HasScheme(url) then
      var i := IndexOfFrom(url, ':', 0);
      (Lower(url[..i]), url[i + 1..])
    else
      (default, url)
  }

  /** An absolute path never starts with a scheme. */
  lemma AbsoluteHasNoScheme(url: string)
    requires PosixPath.IsAbs(url)
    ensures !HasScheme(url)
  {
  }

  /** The smaller of `limit` and the first index at or after `start` of any of
      the characters `/`, `?`, `#`. */
  function NetlocEnd(url: string, start: nat): (d: nat)
    requires start <= |url|
    ensures start <= d <= |url|
    ensures d < |url| ==> url[d] in "/?#"
    ensures forall j | start <= j < d :: url[j] !in "/?#"
  {
    var a := IndexOfFrom(url, '/', start);
    var b := IndexOfFrom(url, '?', start);
    var c := IndexOfFrom(url, '#', start);
    var d1 := if a >= 0 then a else |url|;
    var d2 := if b >= 0 && b < d1 then b else d1;
    if c >= 0 && c < d2 then c else d2
  }

  /** `_splitnetloc(url, start)`: the network location runs from `start` to
      the first `/`, `?` or `#`. */
  function SplitNetloc(url: string, start: nat): (r: (string, string))
    requires start <= |url|
    ensures url[..start] + r.0 + r.1 == url
    ensures forall j | 0 <= j < |r.0| :: r.0[j] !in "/?#"
    ensures r.1 == "" || r.1[0] in "/?#"
  {
    var d := NetlocEnd(url, start);
    assert url[..start] + url[start..d] + url[d..] == url;
    (url[start..d], url[d..])
  }

  /** `s.split(c, 1)` when `c` occurs in `s`, and `(s, "")` otherwise: the
      cut `urlsplit` makes for a fragment (`#`) and a query (`?`). */
  function CutAt(s: string, c: char): (r: (string, string))
    ensures c in s ==> r.0 + [c] + r.1 == s
    ensures c !in s ==> r == (s, "")
    ensures IsPrefix(r.0, s) && c !in r.0
  {
    if c in s then
      var i := IndexOfFrom(s, c, 0);
      assert s[..i] + [c] + s[i + 1..] == s;
      (s[..i], s[i + 1..])
    else
      (s, "")
  }

  /** `_splitparams(url)`: parameters start at the first `;` of the last
      path segment (of the whole string when it holds no `/`). */
  function SplitParams(url: string): (r: (string, string))
    requires ';' in url
    ensures IsPrefix(r.0, url)
    ensures PosixPath.IsAbs(url) ==> PosixPath.IsAbs(r.0)
  {
    if '/' in url then
      var i := IndexOfFrom(url, ';', LastIndexOf(url, '/') as nat);
      if i < 0 then (url, "") else (url[..i], url[i + 1..])
    else
      var i := IndexOfFrom(url, ';', 0);
      (url[..i], url[i + 1..])
  }

  /** `urlparse(url, default)`. */
  function UrlParse(url: string, default: string): (u: Url)
    ensures !HasScheme(url) ==> u.scheme == default
    ensures '?' !in u.path && '#' !in u.path && '#' !in u.query
  {
    var (scheme, rest) := SplitScheme(url, default);
    var (netloc, rest1) := if IsPrefix("//", rest) then SplitNetloc(rest, 2) else ("", rest);
    var (rest2, fragment) := CutAt(rest1, '#');
    var (rest3, query) := CutAt(rest2, '?');
    var (path, params) := if scheme in UsesParams && ';' in rest3 then SplitParams(rest3) else (rest3, "");
    Url(scheme, netloc, path, params, query, fragment)
  }

  /** Parsing an absolute path leaves a path that is empty or absolute, so
      `urljoin` never takes its branch for relative paths on such a reference. */
  lemma AbsoluteReferencePath(url: string, default: string)
    requires PosixPath.IsAbs(url)
    ensures var u := UrlParse(url, default);
      (u.path == "" || PosixPath.IsAbs(u.path)) && (u.path == "" ==> u.params == "")
  {
    AbsoluteHasNoScheme(url);
    var rest1 := if IsPrefix("//", url) then SplitNetloc(url, 2).1 else url;
    var rest2 := CutAt(rest1, '#').0;
    var rest3 := CutAt(rest2, '?').0;
    assert rest3 == "" || rest3[0] == '/';
    var u := UrlParse(url, default);
    if default in UsesParams && ';' in rest3 {
      assert PosixPath.IsAbs(rest3);
      assert u.path == SplitParams(rest3).0;
    } else {
      assert u.path == rest3 && u.params == "";
    }
  }

  /** A reference with no `:`, `;`, `?` or `#` that does not start with `//`
      is all path. */
  lemma PlainPathParse(ref: string)
    requires ':' !in ref && ';' !in ref && '?' !in ref && '#' !in ref && !IsPrefix("//", ref)
    ensures UrlParse(ref, "") == Url("", "", ref, "", "", "")
  {
    assert IndexOfFrom(ref, ':', 0) == -1;
  }

  /** `urlunparse(u)`, with the rule of `urlunsplit` before 3.12: a `//` is
      written for a network location, or for a scheme that uses one. */
  function UrlUnparse(u: Url): (s: string)
    ensures u.scheme != "" ==> IsPrefix(u.scheme + ":", s)
    ensures u.netloc != "" && u.scheme == "" ==> IsPrefix("//" + u.netloc, s)
  {
    var url := if u.params != "" then u.path + ";" + u.params else u.path;
    var url1 :=
      if u.netloc != "" || (u.scheme != "" && u.scheme in UsesNetloc && !IsPrefix("//", url)) then
        "//" + u.netloc + (if url != "" && url[0] != '/' then "/" + url else url)
      else url;
    var url2 := if u.scheme != "" then u.scheme + ":" + url1 else url1;
    var query := if u.query != "" then "?" + u.query else "";
    var fragment := if u.fragment != "" then "#" + u.fragment else "";
    var tail := query + fragment;
    PrefixOfConcat(u.scheme + ":", u.scheme + ":", url1);
    PrefixOfConcat(u.scheme + ":", url2, tail);
    PrefixOfConcat("//" + u.netloc, url2, tail);
    url2 + tail
  }

  /** A prefix of a string is a prefix of that string followed by anything. */
  lemma PrefixOfConcat(p: string, s: string, t: string)
    ensures IsPrefix(p, s) ==> IsPrefix(p, s + t)
  {
    if IsPrefix(p, s) {
      assert (s + t)[..|p|] == s[..|p|];
    }
  }

  /** The loop of `urljoin` that resolves `..` (dropping the last kept
      segment, if any) and `.` (skipped), keeping every other segment. */
  function ResolveDots(segs: seq<string>, acc: seq<string>): (r: seq<string>)
    ensures (forall i | 0 <= i < |segs| :: segs[i] != "." && segs[i] != "..") ==> r == acc + segs
    ensures |r| <= |acc| + |segs|
    decreases |segs|
  {
    if |segs| == 0 then acc
    else if segs[0] == ".." then ResolveDots(segs[1..], if |acc| > 0 then acc[..|acc| - 1] else acc)
    else if segs[0] == "." then ResolveDots(segs[1..], acc)
    else ResolveDots(segs[1..], acc + [segs[0]])
  }

  /** The path `urljoin` builds from a reference path that starts with `/`:
      split at `/` (empty segments are kept: only the branch for relative
      paths filters them out), resolve `.` and `..`, keep a trailing slash
      after a final `.` or `..`, join, and use `/` for an empty result. */
  function NormalizePath(path: string): (r: string)
    requires PosixPath.IsAbs(path)
    ensures r != ""
    ensures (forall i | 0 <= i < |Split(path, '/')| :: Split(path, '/')[i] != "." && Split(path, '/')[i] != "..") ==> r == path
  {
    var segs := Split(path, '/');
    var resolved := ResolveDots(segs, []);
    var resolved' := if segs[|segs| - 1] == "." || segs[|segs| - 1] == ".." then resolved + [""] else resolved;
    var joined := Join(resolved', "/");
    SplitJoin(path, '/');
    if joined == "" then "/" else joined
  }

  /** An absolute path that is not read as `//host` and has no `.` or `..`
      segment. */
  predicate IsCleanPath(path: string) {
    var segs := Split(path, '/');
    PosixPath.IsAbs(path) && !IsPrefix("//", path)
    && (forall i | 1 <= i < |segs| :: segs[i] != "." && segs[i] != "..")
  }

  /** `urljoin` leaves a clean absolute path as it is, empty segments
      included. */
  lemma NormalizeCleanPath(path: string)
    requires IsCleanPath(path)
    ensures NormalizePath(path) == path
  {
    var segments := Split(path, '/');
    SplitJoin(path, '/');
    assert segments[0] == "";
  }

  /** An empty segment of an absolute reference path is kept. */
  lemma NormalizeKeepsEmptySegment()
    ensures NormalizePath("/a//b") == "/a//b"
  {
    var segs := ["", "a", "", "b"];
    assert Join(segs, "/") == "/a//b";
    JoinSplit(segs, '/');
    assert ResolveDots(segs, []) == segs;
  }

  /** In `/a/./b/../c` the `.` segment is skipped and the `..` segment drops
      `b`, giving `/a/c`. */
  lemma NormalizeResolvesDots(a: string, b: string, c: string)
    requires '/' !in a && '/' !in b && '/' !in c
    requires a != "." && a != ".." && b != "." && b != ".." && c != "." && c != ".."
    ensures NormalizePath(Join(["", a, ".", b, "..", c], "/")) == Join(["", a, c], "/")
  {
    var segs := ["", a, ".", b, "..", c];
    JoinSplit(segs, '/');
    DotsResolve(a, b, c);
  }

  lemma DotsResolve(a: string, b: string, c: string)
    requires a != "." && a != ".." && b != "." && b != ".." && c != "." && c != ".."
    ensures ResolveDots(["", a, ".", b, "..", c], []) == ["", a, c]
  {
    var segs := ["", a, ".", b, "..", c];
    assert ResolveDots(segs[4..], ["", a, b]) == ["", a, c] by {
      assert segs[4..][1..] == [c];
    }
    assert segs[3..][1..] == segs[4..];
    assert ResolveDots(segs[3..], ["", a]) == ResolveDots(segs[4..], ["", a, b]);
    assert segs[2..][1..] == segs[3..];
    assert ResolveDots(segs[2..], ["", a]) == ResolveDots(segs[3..], ["", a]);
    assert segs[1..][1..] == segs[2..] && segs[1..][0] == a;
    assert [""] + [a] == ["", a];
    assert ResolveDots(segs[1..], [""]) == ResolveDots(segs[2..], ["", a]);
    assert segs[0] == "" && [] + [""] == [""];
    assert ResolveDots(segs, []) == ResolveDots(segs[1..], [""]);
  }

  /** `urljoin(base, url)` for a `url` that is an absolute path, the only
      form the preprocessor passes. */
  function UrlJoinAbsPath(base: string, url: string): (r: string)
    requires PosixPath.IsAbs(url)
    ensures base == "" ==> r == url
  {
    if base == "" then url
    else
      var b := UrlParse(base, "");
      var u := UrlParse(url, b.scheme);
      if u.scheme != b.scheme || b.scheme !in UsesRelative then url
      else if u.netloc != "" then UrlUnparse(u)
      else if u.path == "" && u.params == "" then
        UrlUnparse(Url(u.scheme, b.netloc, b.path, b.params, if u.query != "" then u.query else b.query, u.fragment))
      else
        AbsoluteReferencePath(url, b.scheme);
        UrlUnparse(Url(u.scheme, b.netloc, NormalizePath(u.path), u.params, u.query, u.fragment))
  }

  /** A scheme as `urlparse` returns it: non-empty lower-case ASCII letters. */
  predicate IsLowerScheme(s: string) {
    |s| > 0 && forall i | 0 <= i < |s| :: 'a' <= s[i] <= 'z'
  }

  /** A network location that runs to the end of its part: non-empty and
      without `/`, `?` or `#`. */
  predicate IsHost(h: string) {
    |h| > 0 && forall i | 0 <= i < |h| :: h[i] != '/' && h[i] != '?' && h[i] != '#'
  }

  /** A clean absolute path without `;`, `?` or `#` parses as a bare path. */
  lemma CleanPathParse(path: string, default: string)
    requires IsCleanPath(path) && ';' !in path && '?' !in path && '#' !in path
    ensures UrlParse(path, default) == Url(default, "", path, "", "", "")
  {
    AbsoluteHasNoScheme(path);
  }

  /** `scheme://host` followed by an empty or absolute path parses back
      into that scheme and that host. */
  lemma ParseHostUrl(scheme: string, host: string, path: string)
    requires IsLowerScheme(scheme) && IsHost(host) && (path == "" || PosixPath.IsAbs(path))
    ensures HasScheme(scheme + "://" + host + path)
    ensures UrlParse(scheme + "://" + host + path, "").scheme == scheme
    ensures UrlParse(scheme + "://" + host + path, "").netloc == host
  {
    SchemeOfHostUrl(scheme, "//" + host + path);
    assert scheme + ":" + ("//" + host + path) == scheme + "://" + host + path;
    NetlocAfterSlashes(host, path);
  }

  /** A lower-case scheme and a colon are split off as the scheme. */
  lemma SchemeOfHostUrl(scheme: string, rest: string)
    requires IsLowerScheme(scheme)
    ensures HasScheme(scheme + ":" + rest)
    ensures SplitScheme(scheme + ":" + rest, "") == (scheme, rest)
  {
    var u := scheme + ":" + rest;
    var n := |scheme|;
    assert u[n] == ':';
    assert forall j | 0 <= j < n :: u[j] == scheme[j];
    assert IndexOfFrom(u, ':', 0) == n;
    assert u[..n] == scheme;
    assert Lower(scheme) == scheme;
    assert u[n + 1..] == rest;
  }

  /** After `//`, the network location is the host, which runs up to the
      path. */
  lemma NetlocAfterSlashes(host: string, path: string)
    requires IsHost(host) && (path == "" || PosixPath.IsAbs(path))
    ensures IsPrefix("//", "//" + host + path)
    ensures SplitNetloc("//" + host + path, 2).0 == host
  {
    var rest := "//" + host + path;
    var d := NetlocEnd(rest, 2);
    assert forall j | 2 <= j < 2 + |host| :: rest[j] == host[j - 2];
    assert forall j | 2 <= j < 2 + |host| :: rest[j] !in "/?#";
    if path != "" {
      assert rest[2 + |host|] == '/';
    }
    assert d == 2 + |host|;
    assert rest[2..2 + |host|] == host;
  }

  /** Joining a clean absolute path onto `scheme://host` followed by any
      absolute path, for a scheme that allows relative references, gives
      `scheme://host` followed by the joined path: the base's own path plays
      no part. */
  lemma UrlJoinHostPath(scheme: string, host: string, basePath: string, path: string)
    requires IsLowerScheme(scheme) && scheme in UsesRelative && IsHost(host)
    requires basePath == "" || PosixPath.IsAbs(basePath)
    requires IsCleanPath(path) && ';' !in path && '?' !in path && '#' !in path
    ensures UrlJoinAbsPath(scheme + "://" + host + basePath, path) == scheme + "://" + host + path
  {
    JoinBarePath(scheme, host, basePath, path);
    NormalizeCleanPath(path);
    UnparseHostPath(scheme, host, path);
  }

  /** A clean absolute path joined onto a base with a host and a
      relative-capable scheme keeps the base's scheme and host and gets its
      path normalised. */
  lemma JoinBarePath(scheme: string, host: string, basePath: string, path: string)
    requires IsLowerScheme(scheme) && scheme in UsesRelative && IsHost(host)
    requires basePath == "" || PosixPath.IsAbs(basePath)
    requires IsCleanPath(path) && ';' !in path && '?' !in path && '#' !in path
    ensures UrlJoinAbsPath(scheme + "://" + host + basePath, path)
         == UrlUnparse(Url(scheme, host, NormalizePath(path), "", "", ""))
  {
    ParseHostUrl(scheme, host, basePath);
    CleanPathParse(path, scheme);
  }

  /** With a host, `urlunparse` writes `scheme://host` before an absolute or empty path. */
  lemma UnparseHostPath(scheme: string, netloc: string, path: string)
    requires scheme != "" && netloc != "" && (path == "" || PosixPath.IsAbs(path))
    ensures UrlUnparse(Url(scheme, netloc, path, "", "", "")) == scheme + "://" + netloc + path
  {
  }
}

=== FILE: validate.dfy ===
/** The schema lookup at the start of `validate(instance, schemas, schema)`:
    which schema an instance is checked against. The check itself is done by
    an external validator and is not part of this model. */
module Validate {
  import opened Text
  import opened Trees
  import PosixPath
  import opened Engine

  /** `schemas` maps each schema's `$id` to the schema; `explicit` is the
      schema passed directly, which wins. Otherwise the instance's `$schema`
      is looked up as it is, then without its extension. */
  function SelectSchema(instance: Tree, schemas: map<string, Tree>, explicit: Option<Tree>): (r: Result<Tree>)
    ensures explicit.Some? ==> r == Ok(explicit.value)
    ensures explicit.None? && r.Ok? ==> r.value in schemas.Values
    ensures explicit.None? && instance.Obj? && "$schema" !in instance.fields ==> r == Err(NoSchema)
    ensures explicit.None? && instance.Obj? && "$schema" in instance.fields ==>
      match instance.fields["$schema"]
      case Str(id) =>
        if id in schemas then r == Ok(schemas[id])
        else if PosixPath.SplitExt(id).0 in schemas then r == Ok(schemas[PosixPath.SplitExt(id).0])
        else r == Err(UnknownSchema)
      case _ => r.Err?
    ensures explicit.None? && !IsContainer(instance) && !instance.Str? ==> r.Err?
  {
    if explicit.Some? then Ok(explicit.value)
    else
      var present :- PyIn("$schema", instance);
      if !present then Err(NoSchema)
      else if !instance.Obj? then Err(TypeMismatch)
      else
        match instance.fields["$schema"]
        case Str(id) =>
          if id in schemas then Ok(schemas[id])
          else
            var base := PosixPath.SplitExt(id).0;
            if base in schemas then Ok(schemas[base]) else Err(UnknownSchema)
        case _ => Err(TypeMismatch)
  }

  /** A document whose `$$schema` names a registered schema id is checked
      against that schema after `handle_all` appended the output format as an
      extension, provided the id with the extension is not itself registered
      and its last path component is not all dots. */
  lemma RewrittenSchemaIsFound(m: map<string, Tree>, bases: Reference.Bases, subs: Subs, cfg: Config, loader: Loader, fuel: nat,
                               schemas: map<string, Tree>, id: string)
    requires "$$schema" in m && m["$$schema"] == Str(id)
    requires HandleAll(Obj(m), bases, subs, cfg, loader, 0, fuel).Ok?
    requires '.' !in cfg.outputFormat && '/' !in cfg.outputFormat
    requires PosixPath.HasNonDot(id, LastIndexOf(id, '/') + 1, |id|)
    requires id in schemas && id + "." + cfg.outputFormat !in schemas
    ensures SelectSchema(HandleAll(Obj(m), bases, subs, cfg, loader, 0, fuel).value, schemas, None) == Ok(schemas[id])
  {
    var out := HandleObject(m, bases, subs, cfg, loader, 0, fuel);
    assert out.Ok?;
    assert out.value["$schema"] == Str(id + "." + cfg.outputFormat);
    PosixPath.SplitExtOfAddedExtension(id, cfg.outputFormat);
  }
}
